=== FILE: README.md ===
# Ticket resale marketplace — a Dafny model

This project models the client-side bookkeeping of a small ticket resale
marketplace written in TypeScript/React. Users register, sign in and hold a
balance in whole units. They list tickets for sale, either as new primary
listings or as resale listings that point at a ticket they bought. They buy
tickets from whoever currently owns them. Every sale is written to an
append-only transaction log, and ownership is derived from an append-only
ownership log. The pages add form validation, a browse filter, and an admin
view of both logs.

The model is functional. The state is immutable values: a user roster with an
optional session, and a market of tickets, transactions and ownership records.
Each operation is a pure transition that takes the acting user, the clock and
freshly generated ids as explicit parameters.

Modules follow the program's structure:

- `Base`: optional values, identifiers, JavaScript truthiness of strings, ASCII lower-casing and substring search.
- `Seqs`: `filter`, `find`/`findIndex`, a last-match search, and the stable sort used by the admin tables.
- `Auth`: the identity store (`AuthContext.tsx`).
- `Tickets`: the marketplace store (`TicketsContext.tsx`).
- `Store`: the two stores together, as one application state. It holds traces of operations and the invariant every trace from the seed keeps.
- `Home`, `Admin`, `Sell`, `RegisterPage`, `TicketDetails`: the logic of the pages of those names.

Points where the code is more precise than a prose description of it, and
which the model follows:

- The current owner of a ticket is taken from a newest-first sort of its ownership records. `Array.prototype.sort` is stable, so among records with equal timestamps the earliest in the log wins (`Tickets.IsLatest`). The admin table's "current" badge compares timestamps only. It can therefore mark several tied records as current (`Admin.TiedRecordsBothMarked`).
- Several tests are JavaScript truthiness tests, and the empty string counts as false. This applies to the resale id passed to `addTicket`, the resolved owner, the selected ticket, the search queries and the sort field.
- The balance check of a purchase reads the session's copy of the balance, not the roster's. `Store.Inv` keeps the two in step.
- When a balance is updated, the state updater copies the session's balance from the last roster entry with the session's id. All other session fields stay as they were. The store's roster effect (src/context/AuthContext.tsx:74-85) then runs again and replaces the session with the first roster entry carrying its id. With unique ids, which `Store.Inv` keeps, the two agree.
- A resale purchase marks unavailable every ticket carrying the bought id. It also marks unavailable the first ticket whose id is the listing's original id.

## Model

| member | source | states |
|---|---|---|
| Auth.SeedUsers | src/context/AuthContext.tsx:45-62 | The first-run roster has two users: "1", an administrator with balance 1000, and "2", a regular user with balance 500. |
| Auth.RestoreSession | src/context/AuthContext.tsx:74-85 | A saved session is restored exactly when its id is still on the roster. The restored session is the first roster entry with that id, without its password. |
| Auth.Login | src/context/AuthContext.tsx:93-104 | Sign-in succeeds exactly when some stored user matches both email and password. On success the session becomes the first such user, without the password. On failure nothing changes. The roster never changes. |
| Auth.Register | src/context/AuthContext.tsx:107-136 | An email already on the roster is refused and nothing changes. Otherwise exactly one account is appended: the given name, email and password, balance 200, not an administrator. The session becomes that account without its password. |
| Auth.Logout | src/context/AuthContext.tsx:139-142 | Sign-out clears the session and leaves the roster as it was. |
| Auth.AdjustBalances | src/context/AuthContext.tsx:147-159 | Every roster entry with the id gains exactly the amount, with no floor. Every other entry is unchanged. |
| Auth.UpdateUserBalance | src/context/AuthContext.tsx:145-163 | The roster is adjusted as above. The session changes only when it belongs to the target. It then takes the target's new roster balance and keeps its other fields. A session that matched a roster entry still does afterwards. |
| Auth.RefreshSessionUntouched | src/context/AuthContext.tsx:150-155 | A balance update aimed at another user, or at an id not on the roster, leaves the session as it was. |
| Auth.RefreshSessionFollowsRoster | src/context/AuthContext.tsx:148-155 | When the session user is the target and the id is on the roster, the refreshed session takes the updated balance of the last roster entry with that id. Its other fields stay as they were. |
| Auth.RefreshSessionSynced | src/context/AuthContext.tsx:145-162 | If ids are unique and the session matched a roster entry, it still matches one after the update. |
| Auth.AdjustBalancesTotal | src/context/AuthContext.tsx:147-159 | The sum of all balances changes by the amount times the number of entries carrying the id. |
| Auth.CountIdUnique | src/context/AuthContext.tsx:114-121 | With unique ids, an id occurs on the roster once if registered and otherwise not at all. |
| Auth.TotalBalanceAppend | src/context/AuthContext.tsx:124-128 | Appending an account adds its balance to the total. |
| Auth.AdjustBalancesInverse | src/context/AuthContext.tsx:145-162 | Adjusting by an amount and then by its negation restores the roster exactly. |
| Auth.AdjustBalancesKeepsIdentity | src/context/AuthContext.tsx:147-158 | Balance updates change no id or email. Registered ids, unique ids and unique emails are all preserved. |
| Auth.SameAccountsKeepIdentity | src/context/AuthContext.tsx:147-158 | Rosters that differ only in balances have the same ids position by position. They keep uniqueness of ids and emails. |
| Auth.RegisterKeepsEmailsUnique | src/context/AuthContext.tsx:109-128 | Registration keeps emails unique and, given a fresh id, ids unique. |
| Auth.RegisterThenLogin | src/context/AuthContext.tsx:107-136 | After a successful registration, signing in with the same email and password succeeds and changes nothing. |
| Tickets.Latest | src/context/TicketsContext.tsx:110-115 | The scan finds a record for the ticket exactly when one exists. The record found is the one the stable newest-first sort puts first: none is newer, and every earlier record of the ticket is strictly older. |
| Tickets.IsLatestUnique | src/context/TicketsContext.tsx:111-113 | Only one position can come first in that sort. |
| Tickets.CurrentOwner | src/context/TicketsContext.tsx:110-116 | With no record the owner is the empty string. Otherwise it is the owner named by the latest record. |
| Tickets.CurrentOwnerAfterAppend | src/context/TicketsContext.tsx:110-116 | Appending a record changes no other ticket's owner. A record newer than all earlier ones for its ticket makes its owner the current owner. |
| Tickets.GetTicketById | src/context/TicketsContext.tsx:255-258 | The result is absent exactly when no ticket has the id. Otherwise it is the first ticket with that id. |
| Tickets.UserTickets | src/context/TicketsContext.tsx:118-125 | Without a user the view is empty. Otherwise it holds, in listing order, exactly the tickets the user currently owns and has bought, each as often as it is listed. |
| Tickets.UserResaleListings | src/context/TicketsContext.tsx:127-130 | Without a user the view is empty. Otherwise it holds, in order, exactly the user's resale listings, whatever their availability, each as often as it is listed. |
| Tickets.AddTicket | src/context/TicketsContext.tsx:133-187 | A signed-out caller is refused. Otherwise one available ticket is appended, with the given fields and the caller as seller. It is a resale of the given id exactly when that id is non-empty. One ownership record binds it to the caller. The transaction log is untouched. |
| Tickets.AddTicketMakesSellerOwner | src/context/TicketsContext.tsx:156-160 | After listing, the seller is the new ticket's current owner. Every other ticket keeps its owner. |
| Tickets.MarkSold | src/context/TicketsContext.tsx:217-219 | Every ticket carrying the id becomes unavailable, with all its other fields kept. Every other ticket is unchanged, and the list keeps its length and order. |
| Tickets.MarkThenCascade | src/context/TicketsContext.tsx:217-230 | Marking the bought id and then cascading makes unavailable exactly the tickets with the bought id and, for a resale, the first ticket with the original's id. |
| Tickets.Cascade | src/context/TicketsContext.tsx:221-230 | For a resale with an original id, the first ticket with that id becomes unavailable. Nothing else changes. |
| Tickets.PurchaseTicket | src/context/TicketsContext.tsx:190-242 | A purchase succeeds exactly when there is a user, the ticket exists and is available, the balance covers the price, and an owner is recorded. A success appends one transaction (seller = prior owner, buyer = user, the ticket's price) and one ownership record for the buyer. It marks the ticket, and for a resale its original, unavailable. Every other ticket is unchanged. |
| Tickets.TicketsEvolveTransitive | src/context/TicketsContext.tsx:217-230 | "Only ever false→true never happens" composes across steps: a sold ticket stays sold. |
| Tickets.PurchaseAvailabilityMonotone | src/context/TicketsContext.tsx:217-230 | A purchase never makes a ticket available and only ever clears `available`. Buying a primary listing touches only tickets with that id. |
| Tickets.PurchaseMakesBuyerOwner | src/context/TicketsContext.tsx:236-240 | With a clock later than every record, the buyer becomes the ticket's current owner and every other ticket keeps its owner. |
| Tickets.ListResaleOfSeed | src/context/TicketsContext.tsx:141-163 | Relisting the seeded ticket under "R" appends exactly one available resale listing pointing at "1", sold by the caller, and one ownership record for the caller. |
| Tickets.ResaleScenario | src/context/TicketsContext.tsx:141-230 | Relisting the seeded ticket as "R" leaves the original on sale. Buying "R" then sells both, and the seeded seller is paid. |
| Store.ListTicket | src/context/TicketsContext.tsx:136-187 | `addTicket` against the application state: refused without a session, otherwise one available ticket and one ownership record are appended and the roster is untouched. |
| Store.Purchase | src/context/TicketsContext.tsx:190-253 | The application-level purchase succeeds exactly when the marketplace purchase does. A failure changes nothing. A success credits the seller and debits the buyer by the price. The buyer stays signed in and only the session's balance changes. When ids are unique and the session matched the roster, that balance drops by the price, or stays put when the buyer is also the recorded owner, and the session still matches the roster. |
| Store.SettleSession | src/context/AuthContext.tsx:145-162 | Through the two balance updates of a purchase the buyer stays signed in, and only the session's balance can change. With unique ids and a synced session, it ends debited by the price and credited back only when the buyer is also the seller. |
| Store.SettleBalances | src/context/TicketsContext.tsx:244-246 | The two balance updates credit the seller and debit the buyer by the price and change nobody else. |
| Store.SettleKeepsSessionSynced | src/context/TicketsContext.tsx:244-246 | After both updates the session still matches a roster entry. |
| Store.SettledSameAccounts | src/context/TicketsContext.tsx:244-246 | Settling a sale changes balances only. |
| Store.SettledTotal | src/context/TicketsContext.tsx:244-246 | The sum of balances changes by the price times the seller's multiplicity minus the price times the buyer's multiplicity. |
| Store.PurchaseConservesBalance | src/context/TicketsContext.tsx:244-246 | With registered buyer and seller and unique ids, a purchase leaves the sum of all balances unchanged. |
| Store.SeedInv | src/context/TicketsContext.tsx:65-95 | The seeded state meets the invariant. Ids are unique, non-empty and registered, emails are unique, the session is in step, and every ticket has an owner. The total balance is 1100 plus 200 per account beyond the seed's two. |
| Store.SessionUserRegistered | src/context/AuthContext.tsx:74-85 | In a reachable state the session user is on the roster. |
| Store.OwnersResolvable | src/context/TicketsContext.tsx:199-201 | In a reachable state every recorded ticket resolves to a non-empty registered owner, so the missing-owner refusal never fires. |
| Store.RegisterKeepsInv | src/context/AuthContext.tsx:107-136 | Registration with a fresh non-empty id preserves the invariant. |
| Store.LoginKeepsInv | src/context/AuthContext.tsx:93-104 | Sign-in preserves the invariant. |
| Store.ListKeepsInv | src/context/TicketsContext.tsx:133-187 | Listing with a fresh id preserves the invariant. |
| Store.PurchaseKeepsInv | src/context/TicketsContext.tsx:190-253 | A purchase preserves the invariant, conservation of balances included. |
| Store.OwnershipsKeepInv | src/context/TicketsContext.tsx:236-240 | Appending a record with a registered owner keeps every owner registered. |
| Store.ListingRecordsCoverTickets | src/context/TicketsContext.tsx:153-161 | A listing appends a ticket and a record with the same id, so every ticket still has an ownership record. |
| Store.RecordsCoverTickets | src/context/TicketsContext.tsx:232-241 | When tickets only change availability and the log only grows, every ticket keeps an ownership record. |
| Store.StepKeepsInv | src/context/TicketsContext.tsx:133-253 | Every operation whose fresh ids are fresh preserves the invariant. |
| Store.EvolvesTransitive | src/context/TicketsContext.tsx:232-241 | Append-only logs, never-reopened tickets and unchanged accounts compose across steps. |
| Store.StepEvolves | src/context/TicketsContext.tsx:133-242 | Each operation only appends to both logs and never reopens a sold ticket. It never removes or re-identifies an account. Every ticket it adds is available. |
| Store.RunKeepsInv | src/context/TicketsContext.tsx:133-253 | Any accepted trace of operations preserves the invariant and only evolves the state. |
| Store.ReachableFromSeed | src/context/TicketsContext.tsx:65-95 | Every state reachable from the seed meets the invariant and evolves from the seed. |
| Store.ReloadKeepsSession | src/context/AuthContext.tsx:74-85 | Restoring the session on reload from a reachable state yields the same session. |
| Store.SeedPurchase | src/context/TicketsContext.tsx:190-242 | Any user whose balance covers 150 buys the seeded ticket from "2" at 150. The ticket is sold, and the logs gain exactly one transaction and one ownership record for the buyer. |
| Store.FirstPurchaseScenario | src/context/TicketsContext.tsx:190-248 | A newcomer buys the seeded ticket: it is sold, one transaction "2"→"3" at 150 is logged, ownership passes to "3", and the balances are settled between "2" and "3". |
| Store.ScenarioSettled | src/context/TicketsContext.tsx:244-246 | After that sale the balances are 1000, 650 and 50, and the newcomer's session shows 50. |
| Store.ScenarioRegistered | src/context/AuthContext.tsx:107-136 | Registering the newcomer on the seed appends user "3" with balance 200 and signs them in. |
| Home.NewAndResalePartitionAvailable | src/pages/Home.tsx:13-14 | The new and resale sections share no ticket, together hold exactly the available tickets, and their sizes add up. |
| Home.HandleFilter | src/pages/Home.tsx:22-42 | Results are in listing order and all available. They have the chosen type and lie within the price bounds. For a non-empty query, the query occurs lower-cased in the title, description or location. Every ticket meeting all criteria is kept, as often as it is listed. |
| Home.NoCriteriaShowsAvailable | src/pages/Home.tsx:22-42 | With no criteria the filter returns exactly the available tickets. |
| Home.DisplayShowsAvailable | src/pages/Home.tsx:48 | What the page shows is an in-order selection of available tickets. |
| Admin.HandleSort | src/pages/AdminDashboard.tsx:14-21 | Clicking a column selects it. On the current column the direction flips; on another column it is reset to descending. |
| Admin.HandleSortTwice | src/pages/AdminDashboard.tsx:14-21 | Two clicks on the selected column restore the state. Two clicks on a new column leave it ascending. |
| Admin.FilterTransactions | src/pages/AdminDashboard.tsx:24-36 | An empty search keeps the whole log. Otherwise each kept entry contains the lower-cased query in its ticket, seller or buyer id, or in its ticket's title. Every entry that matches is kept, in log order and with its multiplicity. |
| Admin.FilterOwnerships | src/pages/AdminDashboard.tsx:39-50 | The same for ownership records, over ticket id, owner id and ticket title. |
| Admin.SortTransactions | src/pages/AdminDashboard.tsx:53-66 | The sorted table is a permutation of its input. With no column, or with date ascending, the newest is first; with date descending, the oldest is first. Price ascending is non-decreasing and price descending non-increasing. |
| Admin.SortOwnerships | src/pages/AdminDashboard.tsx:69-80 | A permutation, newest first with no column or date ascending, oldest first with date descending. |
| Admin.SortTransactionsStable | src/pages/AdminDashboard.tsx:53-66 | The sort is stable. Under any date order, the entries with one timestamp stay in log order. Under any price order, the entries with one price stay in log order. |
| Admin.SortOwnershipsStable | src/pages/AdminDashboard.tsx:69-80 | Under any date order, the ownership records with one timestamp stay in log order. |
| Admin.FirstDisplay | src/pages/AdminDashboard.tsx:10-21 | On first display no column is selected and the direction is descending. Both tables then show newest first, with ties in log order. The first click on any column selects it, descending. |
| Admin.UnknownColumnKeepsOrder | src/pages/AdminDashboard.tsx:63-64 | A column without a comparator leaves rows in log order, and so does price for the ownership table. |
| Admin.TotalVolumeConcat | src/pages/AdminDashboard.tsx:168 | The volume of two logs run together is the sum of their volumes. |
| Admin.ComputeTotalVolume | src/pages/AdminDashboard.tsx:168 | The running sum over the log equals the total of its prices. |
| Admin.PurchaseAddsVolume | src/pages/AdminDashboard.tsx:168 | A purchase raises the volume by exactly the price paid. |
| Admin.IsCurrentRecord | src/pages/AdminDashboard.tsx:335-337 | A record is marked current exactly when no record of its ticket has a later timestamp. Equivalently, its timestamp equals that of the latest record of its ticket. |
| Admin.CurrentBadgeMatchesOwner | src/pages/AdminDashboard.tsx:335-337 | The record naming the current owner is marked current. When the ticket's timestamps are distinct, it is the only record marked. |
| Admin.TiedRecordsBothMarked | src/pages/AdminDashboard.tsx:335-337 | Two records written at the same instant are both marked current, though only the earlier is the owner. |
| Sell.ValidateListing | src/pages/SellTicket.tsx:53-86 | The errors come in this order: a missing selection on the resell tab, any empty field, then a price that does not parse or is not positive. Only a form passing all three reaches `addTicket`. It passes the date joined to the time by "T", the parsed price, the chosen sample picture, and the selected id exactly in resell mode. |
| Sell.SubmitListing | src/pages/SellTicket.tsx:53-99 | A validation error changes nothing. A signed-out seller gets the generic failure. Otherwise exactly one listing is appended with the form's title, description, location, type, joined date, parsed price and sample picture; it is available, and a resale of the selected ticket exactly in resell mode. One ownership record for the seller is appended, and the transactions, the roster and the session are unchanged. |
| Sell.ResaleCandidates | src/pages/SellTicket.tsx:102 | The candidates are, in order, exactly the user's tickets that are not resale listings, each as often as it occurs. |
| Sell.ImageIndexOf | src/pages/SellTicket.tsx:48-49 | The picture's first position among the samples, or 0 when it is not a sample. |
| Sell.ImageIndexOfSample | src/pages/SellTicket.tsx:8-15 | The samples are distinct, so every picture choice is recovered from its address. |
| Sell.SelectExisting | src/pages/SellTicket.tsx:36-51 | An id not among the user's tickets changes nothing. Otherwise the form is filled from the first ticket with that id. |
| Sell.SelectThenSubmit | src/pages/SellTicket.tsx:36-86 | Selecting one's ticket and submitting as filled relists it. The relisting keeps its text, type and price, and its picture when that is a sample. The original's id is passed on. |
| RegisterPage.ValidatePassword | src/pages/Register.tsx:24-26 | A password is accepted exactly when its JavaScript length, in UTF-16 code units, is at least 8. |
| RegisterPage.ValidatePasswordChars | src/pages/Register.tsx:24-26 | Eight characters always suffice and fewer than four never do. For a password of Basic Multilingual Plane characters only, acceptance means at least eight characters. |
| RegisterPage.ValidatePasswordExamples | src/pages/Register.tsx:24-26 | Four emoji, each two code units, are accepted. The seven-letter "letmein" is refused. |
| RegisterPage.SubmitRegistration | src/pages/Register.tsx:28-56 | The errors come in this order: empty fields, a password under 8 UTF-16 code units, then a mismatched confirmation. Only a form passing all three reaches `register`. A refusal there is reported as an email conflict, and any rejection changes nothing. |
| RegisterPage.SignUpThenSignIn | src/pages/Register.tsx:50-53 | After a completed sign-up, signing in with the same credentials succeeds and changes nothing. |
| TicketDetails.HandlePurchase | src/pages/TicketDetails.tsx:72-96 | An unknown ticket shows "not found". A signed-out visitor is sent to sign in. The owner gets "You already own this ticket". Otherwise the purchase runs and its success is shown. A failure names the balance exactly when the balance is below the price, and shows the generic message exactly when the balance covers the price. No path except success changes the state. |
| TicketDetails.GenericFailureMeansSold | src/pages/TicketDetails.tsx:91-96 | In a reachable state the generic failure is shown exactly for a signed-in non-owner who can afford a ticket that is no longer available. |

## Left out

- Persistence: the localStorage reads and writes and their JSON encoding are left out. State is an in-memory value with a seeded start, and a reload is modelled only as `Auth.RestoreSession`.
- React machinery is left out: state hooks, effects, re-renders and stale closures. Each operation is one sequential transition. In particular, the re-sync of the session from the first roster entry with its id, which the roster effect performs after every roster change, is not applied after a balance update. On a roster with duplicate ids the final session can therefore differ from the model's. The `Promise` results of `login`, `register` and `purchaseTicket` are plain booleans.
- The `try`/`catch` branches around a purchase and a sign-up are left out, because nothing in the model throws there. The thrown error of `addTicket` without a user is modelled as a refusal.
- `uuidv4` and `crypto.randomUUID` are parameters. Traces reject an operation whose new id is already in use, and a new user id must also be non-empty.
- Clocks: `new Date().toISOString()` is a natural-number parameter. The model does not assume the clock increases, except in `Tickets.PurchaseMakesBuyerOwner`, which says so in its requires.
- A purchase reads the clock twice: once for the transaction (src/context/TicketsContext.tsx:211) and once inside the state updater for the new ownership record (src/context/TicketsContext.tsx:239). The model stamps both with one `now`, so it does not cover the two timestamps differing by a millisecond.
- Date formatting and parsing (date-fns, `new Date(...)` on stored strings) are left out. `Sell.SelectExisting` takes the date split and the price rendering as parameters.
- Prices and balances are integers, not JavaScript floating-point numbers. `parseFloat` with its `NaN` check is a parameter returning an optional integer.
- `toLowerCase` is modelled for ASCII letters only.
- Strings are sequences of Unicode scalar values. The one length test the pages make, on the password, counts UTF-16 code units as JavaScript does (`Base.Utf16Length`). Substring search (`includes`) runs over scalar values; for well-formed strings this finds the same matches as a search over code units.
- All rendering is left out, including `Header.tsx`, `TicketCard.tsx` and `App.tsx` routing. Also left out: the form state of `TicketFilter.tsx`, `Login.tsx` (a non-empty check before `login`), and `Dashboard.tsx` (a display with a one-line buyer filter).
- The ticket download in the ticket page is left out, because it is a browser file download.
- The redirect of signed-in visitors away from the sign-up page is left out, because it is navigation only.
- Races between browser tabs and storage-quota failures are outside a sequential model.
- Home.DisplayShowsAvailable: covers a filter result computed from the current listings. The page keeps the result of its last filter run, which can still show a ticket sold after that run.

=== FILE: admin.dfy ===
/** The admin dashboard: the sort-state toggle, the search over the two
    logs, the two sort orders, the volume statistic and the "current owner"
    marker of the ownership table. */
module Admin {
  import opened Base
  import opened Seqs
  import opened Tickets

  datatype Direction = Asc | Desc

  /** The sort column (`null` until a header is clicked) and its direction. */
  datatype SortState = SortState(field: Option<string>, direction: Direction)

  /** No column selected, direction descending, as on first display. */
  const InitialSort := SortState(None, Desc)

  function Flip(d: Direction): Direction {
    if d == Asc then Desc else Asc
  }

  /** `handleSort`: clicking the current column flips the direction; clicking
      another column selects it, descending. */
  function HandleSort(st: SortState, field: string): (r: SortState)
    ensures r.field == Some(field)
    ensures st.field == Some(field) ==> r.direction != st.direction
    ensures st.field != Some(field) ==> r.direction == Desc
  {
    if st.field == Some(field) then SortState(st.field, Flip(st.direction))
    else SortState(Some(field), Desc)
  }

  /** Clicking the same header twice restores the state when that column was
      already selected, and otherwise leaves it selected ascending. */
  lemma HandleSortTwice(st: SortState, field: string)
    ensures HandleSort(HandleSort(st, field), field)
            == if st.field == Some(field) then st else SortState(Some(field), Asc)
  {
  }

  /** The title of the ticket a log entry refers to, looked up by id. */
  predicate TitleContains(ts: seq<Ticket>, tid: Id, q: string) {
    match GetTicketById(ts, tid)
    case Some(t) => Contains(Lower(t.title), q)
    case None => false
  }

  predicate TransactionMatches(tx: Transaction, ts: seq<Ticket>, q: string) {
    || Contains(Lower(tx.ticketId), q)
    || Contains(Lower(tx.sellerId), q)
    || Contains(Lower(tx.buyerId), q)
    || TitleContains(ts, tx.ticketId, q)
  }

  predicate OwnershipMatches(rec: OwnershipRecord, ts: seq<Ticket>, q: string) {
    || Contains(Lower(rec.ticketId), q)
    || Contains(Lower(rec.ownerId), q)
    || TitleContains(ts, rec.ticketId, q)
  }

  /** `filteredTransactions`: an empty search keeps the whole log; otherwise
      the entries whose ticket id, seller id or buyer id, or whose ticket's
      title, contain the lower-cased query. */
  function FilterTransactions(txs: seq<Transaction>, ts: seq<Ticket>, query: string): (r: seq<Transaction>)
    ensures IsSubsequence(r, txs)
    ensures !Truthy(query) ==> r == txs
    ensures Truthy(query) ==> forall tx :: tx in r ==>
              || Contains(Lower(tx.ticketId), Lower(query))
              || Contains(Lower(tx.sellerId), Lower(query))
              || Contains(Lower(tx.buyerId), Lower(query))
              || (GetTicketById(ts, tx.ticketId).Some?
                  && Contains(Lower(GetTicketById(ts, tx.ticketId).value.title), Lower(query)))
    ensures forall tx :: tx in txs && TransactionMatches(tx, ts, Lower(query)) ==> tx in r
    ensures forall tx :: tx in txs ==>
              multiset(r)[tx] == if !Truthy(query) || TransactionMatches(tx, ts, Lower(query)) then multiset(txs)[tx] else 0
  {
    if !Truthy(query) then
      SubsequenceOfSelf(txs);
      txs
    else
      Filter(txs, (tx: Transaction) => TransactionMatches(tx, ts, Lower(query)))
  }

  /** `filteredOwnerships`: as for transactions, over ticket id, owner id and
      the ticket's title. */
  function FilterOwnerships(os: seq<OwnershipRecord>, ts: seq<Ticket>, query: string): (r: seq<OwnershipRecord>)
    ensures IsSubsequence(r, os)
    ensures !Truthy(query) ==> r == os
    ensures Truthy(query) ==> forall rec :: rec in r ==>
              || Contains(Lower(rec.ticketId), Lower(query))
              || Contains(Lower(rec.ownerId), Lower(query))
              || (GetTicketById(ts, rec.ticketId).Some?
                  && Contains(Lower(GetTicketById(ts, rec.ticketId).value.title), Lower(query)))
    ensures forall rec :: rec in os && OwnershipMatches(rec, ts, Lower(query)) ==> rec in r
    ensures forall rec :: rec in os ==>
              multiset(r)[rec] == if !Truthy(query) || OwnershipMatches(rec, ts, Lower(query)) then multiset(os)[rec] else 0
  {
    if !Truthy(query) then
      SubsequenceOfSelf(os);
      os
    else
      Filter(os, (rec: OwnershipRecord) => OwnershipMatches(rec, ts, Lower(query)))
  }

  /** No column selected: `!sortField` also treats the empty name as none. */
  predicate NoSortField(st: SortState) {
    st.field.None? || !Truthy(st.field.value)
  }

  predicate SortsBy(st: SortState, field: string) {
    st.field == Some(field)
  }

  /** Every comparator of the transaction table is `key(a) - key(b)` for this
      key. The date comparator subtracts `a` from `b`, so ascending puts the
      newest entry first. */
  function TransactionKey(st: SortState): Transaction -> int {
    if NoSortField(st) then (tx: Transaction) => -(tx.timestamp as int)
    else if SortsBy(st, "date") then
      if st.direction == Asc then (tx: Transaction) => -(tx.timestamp as int) else (tx: Transaction) => tx.timestamp
    else if SortsBy(st, "price") then
      if st.direction == Asc then (tx: Transaction) => tx.price else (tx: Transaction) => -tx.price
    else (tx: Transaction) => 0
  }

  /** The ownership table knows only the date column. */
  function OwnershipKey(st: SortState): OwnershipRecord -> int {
    if NoSortField(st) then (rec: OwnershipRecord) => -(rec.timestamp as int)
    else if SortsBy(st, "date") then
      if st.direction == Asc then (rec: OwnershipRecord) => -(rec.timestamp as int) else (rec: OwnershipRecord) => rec.timestamp
    else (rec: OwnershipRecord) => 0
  }

  /** `sortedTransactions`. */
  function SortTransactions(txs: seq<Transaction>, st: SortState): (r: seq<Transaction>)
    ensures multiset(r) == multiset(txs)
    ensures NoSortField(st) || (SortsBy(st, "date") && st.direction == Asc) ==>
              forall i, j :: 0 <= i < j < |r| ==> r[i].timestamp >= r[j].timestamp
    ensures SortsBy(st, "date") && st.direction == Desc ==>
              forall i, j :: 0 <= i < j < |r| ==> r[i].timestamp <= r[j].timestamp
    ensures SortsBy(st, "price") && st.direction == Asc ==>
              forall i, j :: 0 <= i < j < |r| ==> r[i].price <= r[j].price
    ensures SortsBy(st, "price") && st.direction == Desc ==>
              forall i, j :: 0 <= i < j < |r| ==> r[i].price >= r[j].price
  {
    Sort(txs, TransactionKey(st))
  }

  /** `sortedOwnerships`. */
  function SortOwnerships(os: seq<OwnershipRecord>, st: SortState): (r: seq<OwnershipRecord>)
    ensures multiset(r) == multiset(os)
    ensures NoSortField(st) || (SortsBy(st, "date") && st.direction == Asc) ==>
              forall i, j :: 0 <= i < j < |r| ==> r[i].timestamp >= r[j].timestamp
    ensures SortsBy(st, "date") && st.direction == Desc ==>
              forall i, j :: 0 <= i < j < |r| ==> r[i].timestamp <= r[j].timestamp
  {
    Sort(os, OwnershipKey(st))
  }

  /** The transactions stamped at time `t`, and those sold at `price`. */
  function AtTime(t: nat): Transaction -> bool {
    (tx: Transaction) => tx.timestamp == t
  }

  function AtPrice(price: int): Transaction -> bool {
    (tx: Transaction) => tx.price == price
  }

  /** The ownership records stamped at time `t`. */
  function RecordAtTime(t: nat): OwnershipRecord -> bool {
    (rec: OwnershipRecord) => rec.timestamp == t
  }

  /** Ties keep log order (`Array.prototype.sort` is stable): under the date
      orders, transactions stamped at the same time appear as in the log;
      under the price orders, so do transactions of the same price. */
  lemma SortTransactionsStable(txs: seq<Transaction>, st: SortState, t: nat, price: int)
    ensures NoSortField(st) || SortsBy(st, "date") ==>
              Filter(SortTransactions(txs, st), AtTime(t)) == Filter(txs, AtTime(t))
    ensures SortsBy(st, "price") ==>
              Filter(SortTransactions(txs, st), AtPrice(price)) == Filter(txs, AtPrice(price))
  {
    var key := TransactionKey(st);
    if NoSortField(st) || (SortsBy(st, "date") && st.direction == Asc) {
      assert key == (tx: Transaction) => -(tx.timestamp as int);
      SortStableFor(txs, key, -(t as int), AtTime(t));
    } else if SortsBy(st, "date") {
      assert key == (tx: Transaction) => tx.timestamp as int;
      SortStableFor(txs, key, t, AtTime(t));
    } else if SortsBy(st, "price") && st.direction == Asc {
      assert key == (tx: Transaction) => tx.price;
      SortStableFor(txs, key, price, AtPrice(price));
    } else if SortsBy(st, "price") {
      assert key == (tx: Transaction) => -tx.price;
      SortStableFor(txs, key, -price, AtPrice(price));
    }
  }

  /** Ownership records stamped at the same time keep their log order under
      the date orders. */
  lemma SortOwnershipsStable(os: seq<OwnershipRecord>, st: SortState, t: nat)
    ensures NoSortField(st) || SortsBy(st, "date") ==>
              Filter(SortOwnerships(os, st), RecordAtTime(t)) == Filter(os, RecordAtTime(t))
  {
    var key := OwnershipKey(st);
    if NoSortField(st) || (SortsBy(st, "date") && st.direction == Asc) {
      assert key == (rec: OwnershipRecord) => -(rec.timestamp as int);
      SortStableFor(os, key, -(t as int), RecordAtTime(t));
    } else if SortsBy(st, "date") {
      assert key == (rec: OwnershipRecord) => rec.timestamp as int;
      SortStableFor(os, key, t, RecordAtTime(t));
    }
  }

  /** On first display no column is selected: both tables list the newest
      entries first with ties in log order, and the first click on any
      header sorts that column descending. */
  lemma FirstDisplay(txs: seq<Transaction>, os: seq<OwnershipRecord>, t: nat, field: string)
    ensures var r := SortTransactions(txs, InitialSort);
            && (forall i, j :: 0 <= i < j < |r| ==> r[i].timestamp >= r[j].timestamp)
            && Filter(r, AtTime(t)) == Filter(txs, AtTime(t))
    ensures var r := SortOwnerships(os, InitialSort);
            && (forall i, j :: 0 <= i < j < |r| ==> r[i].timestamp >= r[j].timestamp)
            && Filter(r, RecordAtTime(t)) == Filter(os, RecordAtTime(t))
    ensures HandleSort(InitialSort, field) == SortState(Some(field), Desc)
  {
    SortTransactionsStable(txs, InitialSort, t, 0);
    SortOwnershipsStable(os, InitialSort, t);
  }

  /** A column the table has no comparator for leaves the rows in log order. */
  lemma UnknownColumnKeepsOrder(txs: seq<Transaction>, os: seq<OwnershipRecord>, st: SortState)
    requires !NoSortField(st) && !SortsBy(st, "date")
    ensures SortOwnerships(os, st) == os
    ensures !SortsBy(st, "price") ==> SortTransactions(txs, st) == txs
  {
    SortOfSorted(os, OwnershipKey(st));
    if !SortsBy(st, "price") {
      SortOfSorted(txs, TransactionKey(st));
    }
  }

  /** The "Total Volume" card: the left fold of `sum + t.price`. */
  function TotalVolume(txs: seq<Transaction>): int {
    if txs == [] then 0 else TotalVolume(txs[..|txs| - 1]) + txs[|txs| - 1].price
  }

  /** The volume of two logs run together is the sum of their volumes. */
  lemma {:induction false} TotalVolumeConcat(a: seq<Transaction>, b: seq<Transaction>)
    ensures TotalVolume(a + b) == TotalVolume(a) + TotalVolume(b)
  {
    if b == [] {
      assert a + b == a;
    } else {
      assert (a + b)[..|a + b| - 1] == a + b[..|b| - 1];
      TotalVolumeConcat(a, b[..|b| - 1]);
    }
  }

  /** The volume card computed as the page does, one transaction at a time. */
  method ComputeTotalVolume(txs: seq<Transaction>) returns (sum: int)
    ensures sum == TotalVolume(txs)
  {
    sum := 0;
    var i := 0;
    while i < |txs|
      invariant 0 <= i <= |txs|
      invariant sum == TotalVolume(txs[..i])
    {
      assert txs[..i + 1][..i] == txs[..i];
      sum := sum + txs[i].price;
      i := i + 1;
    }
    assert txs[..|txs|] == txs;
  }

  /** A purchase raises the volume by exactly the price paid. */
  lemma PurchaseAddsVolume(m: Market, user: Option<Auth.User>, tid: Id, txId: Id, now: nat)
    ensures var r := PurchaseTicket(m, user, tid, txId, now);
            r.Bought? ==> TotalVolume(r.market.transactions) == TotalVolume(m.transactions) + r.price
  {
    var r := PurchaseTicket(m, user, tid, txId, now);
    if r.Bought? {
      var last := r.market.transactions[|r.market.transactions| - 1];
      assert r.market.transactions[..|r.market.transactions| - 1] == m.transactions;
    }
  }

  /** The "Current" badge: the record's timestamp equals that of the first
      record, newest first, among those of its ticket. */
  function IsCurrentRecord(os: seq<OwnershipRecord>, rec: OwnershipRecord): (r: bool)
    ensures r ==> HasRecord(os, rec.ticketId)
    ensures r <==> exists i :: IsLatest(os, rec.ticketId, i) && os[i].timestamp == rec.timestamp
    ensures rec in os ==>
              (r <==> forall k :: 0 <= k < |os| && os[k].ticketId == rec.ticketId ==> os[k].timestamp <= rec.timestamp)
  {
    match Latest(os, rec.ticketId)
    case Some(i) =>
      assert forall j :: IsLatest(os, rec.ticketId, j) ==> j == i by {
        forall j | IsLatest(os, rec.ticketId, j)
          ensures j == i
        {
          IsLatestUnique(os, rec.ticketId, i, j);
        }
      }
      rec.timestamp == os[i].timestamp
    case None => false
  }

  /** The badge agrees with the marketplace's notion of owner: the record
      naming the current owner is marked current, and when the ticket's
      records carry distinct timestamps it is the only one marked. */
  lemma CurrentBadgeMatchesOwner(os: seq<OwnershipRecord>, tid: Id)
    requires HasRecord(os, tid)
    ensures exists i :: 0 <= i < |os| && os[i].ticketId == tid && IsCurrentRecord(os, os[i])
                        && os[i].ownerId == CurrentOwner(os, tid)
    ensures (forall j, k :: 0 <= j < k < |os| && os[j].ticketId == tid && os[k].ticketId == tid
               ==> os[j].timestamp != os[k].timestamp)
            ==> forall k :: 0 <= k < |os| && os[k].ticketId == tid && IsCurrentRecord(os, os[k])
                  ==> os[k].ownerId == CurrentOwner(os, tid)
  {
    var i := Latest(os, tid).value;
    assert os[i] in os;
    assert IsCurrentRecord(os, os[i]);
  }

  /** Tied timestamps: two records of one ticket written at the same instant
      are both marked current, although only the earlier one is the owner. */
  lemma TiedRecordsBothMarked()
    ensures var os := [OwnershipRecord("t", "a", 5), OwnershipRecord("t", "b", 5)];
            && IsCurrentRecord(os, os[0]) && IsCurrentRecord(os, os[1])
            && CurrentOwner(os, "t") == "a"
  {
    var os := [OwnershipRecord("t", "a", 5), OwnershipRecord("t", "b", 5)];
    assert IsLatest(os, "t", 0);
    assert os[0] in os && os[1] in os;
  }
}

=== FILE: auth.dfy ===
/** The identity store: the roster of registered users and the optional
    session (the password-free projection of the signed-in user). */
module Auth {
  import opened Base
  import opened Seqs

  /** A roster entry; the password is kept in plain text, as the store does. */
  datatype StoredUser = StoredUser(id: Id, name: string, email: string, password: string,
                                   balance: int, isAdmin: bool)

  /** The session's view of a user: a roster entry without its password. */
  datatype User = User(id: Id, name: string, email: string, balance: int, isAdmin: bool)

  datatype AuthState = AuthState(users: seq<StoredUser>, session: Option<User>)

  /** Units credited to every newly registered account. */
  const StartingBalance: int := 200

  /** Drops the password. */
  function Public(u: StoredUser): User {
    User(u.id, u.name, u.email, u.balance, u.isAdmin)
  }

  /** The roster written on first run: an administrator and a regular user. */
  function SeedUsers(): (r: seq<StoredUser>)
    ensures |r| == 2
    ensures r[0].id == "1" && r[0].isAdmin && r[0].balance == 1000
    ensures r[1].id == "2" && !r[1].isAdmin && r[1].balance == 500
  {
    [ StoredUser("1", "Admin User", "admin@example.com", "password123", 1000, true),
      StoredUser("2", "Regular User", "user@example.com", "password123", 500, false) ]
  }

  /** Nobody is signed in before a session is restored or established. */
  function SeedAuth(): AuthState {
    AuthState(SeedUsers(), None)
  }

  predicate IsUserId(users: seq<StoredUser>, id: Id) {
    exists u :: u in users && u.id == id
  }

  predicate EmailTaken(users: seq<StoredUser>, email: string) {
    exists u :: u in users && u.email == email
  }

  predicate UniqueIds(users: seq<StoredUser>) {
    forall i, j :: 0 <= i < j < |users| ==> users[i].id != users[j].id
  }

  predicate UniqueEmails(users: seq<StoredUser>) {
    forall i, j :: 0 <= i < j < |users| ==> users[i].email != users[j].email
  }

  /** The session, when present, is exactly the projection of a roster entry. */
  predicate SessionSynced(st: AuthState) {
    st.session.Some? ==> exists k :: 0 <= k < |st.users| && st.session.value == Public(st.users[k])
  }

  predicate Credentials(u: StoredUser, email: string, password: string) {
    u.email == email && u.password == password
  }

  /** Position `k` holds the first roster entry with the id. */
  predicate FirstWithId(users: seq<StoredUser>, id: Id, k: int) {
    && 0 <= k < |users|
    && users[k].id == id
    && forall j :: 0 <= j < k ==> users[j].id != id
  }

  /** The session restored on start-up from a saved session: the first roster
      entry with the saved id, if that id is still registered. */
  function RestoreSession(users: seq<StoredUser>, saved: Option<User>): (r: Option<User>)
    ensures r.Some? <==> saved.Some? && IsUserId(users, saved.value.id)
    ensures saved.Some? ==> forall k {:trigger FirstWithId(users, saved.value.id, k)} ::
              FirstWithId(users, saved.value.id, k) ==> r == Some(Public(users[k]))
  {
    match saved
    case None => None
    case Some(sd) =>
      match Find(users, (u: StoredUser) => u.id == sd.id)
      case Some(u) => Some(Public(u))
      case None =>
        assert forall u :: u in users ==> u.id != sd.id by {
          forall u | u in users ensures u.id != sd.id {
            var k :| 0 <= k < |users| && users[k] == u;
          }
        }
        None
  }

  /** `login`: succeeds iff some roster entry matches both email and
      password; the session becomes the first such entry. The roster never
      changes, and on failure nothing changes. */
  function Login(st: AuthState, email: string, password: string): (r: (bool, AuthState))
    ensures r.0 <==> exists k :: 0 <= k < |st.users| && Credentials(st.users[k], email, password)
    ensures r.1.users == st.users
    ensures !r.0 ==> r.1 == st
    ensures r.0 ==> exists k :: 0 <= k < |st.users| && Credentials(st.users[k], email, password)
                                && (forall j :: 0 <= j < k ==> !Credentials(st.users[j], email, password))
                                && r.1.session == Some(Public(st.users[k]))
  {
    match FindIndex(st.users, (u: StoredUser) => Credentials(u, email, password))
    case Some(k) => (true, st.(session := Some(Public(st.users[k]))))
    case None => (false, st)
  }

  /** `register`: rejects an email already on the roster (exact match);
      otherwise appends one account with the starting balance and signs it
      in. `newId` stands for the random UUID and must be unused. */
  function Register(st: AuthState, name: string, email: string, password: string, newId: Id): (r: (bool, AuthState))
    requires !IsUserId(st.users, newId)
    ensures EmailTaken(st.users, email) ==> r == (false, st)
    ensures !EmailTaken(st.users, email) ==>
              && r.0
              && r.1.users == st.users + [StoredUser(newId, name, email, password, StartingBalance, false)]
              && r.1.session == Some(User(newId, name, email, StartingBalance, false))
  {
    if EmailTaken(st.users, email) then (false, st)
    else
      var nu := StoredUser(newId, name, email, password, StartingBalance, false);
      (true, AuthState(st.users + [nu], Some(Public(nu))))
  }

  /** `logout`: ends the session; the roster is untouched. */
  function Logout(st: AuthState): (r: AuthState)
    ensures r.session.None?
    ensures r.users == st.users
  {
    st.(session := None)
  }

  /** Adds `amount` to every roster entry with id `id`, with no floor. */
  function AdjustBalances(users: seq<StoredUser>, id: Id, amount: int): (r: seq<StoredUser>)
    ensures |r| == |users|
    ensures forall i :: 0 <= i < |users| ==>
              r[i] == if users[i].id == id then users[i].(balance := users[i].balance + amount) else users[i]
  {
    seq(|users|, i requires 0 <= i < |users| =>
      if users[i].id == id then users[i].(balance := users[i].balance + amount) else users[i])
  }

  /** The test `u.id === userId` of the roster update. */
  function HasId(id: Id): StoredUser -> bool {
    (v: StoredUser) => v.id == id
  }

  /** The session after a balance update: when the session user is the
      target, its balance becomes the updated roster balance of the LAST
      matching entry (each matching entry rewrites the session in turn). */
  function RefreshSession(users: seq<StoredUser>, session: Option<User>, id: Id, amount: int): Option<User> {
    var found := FindLast(users, HasId(id));
    if session.Some? && session.value.id == id && found.Some? then
      Some(session.value.(balance := users[found.value].balance + amount))
    else session
  }

  lemma RefreshSessionUntouched(users: seq<StoredUser>, session: Option<User>, id: Id, amount: int)
    requires session.None? || session.value.id != id || !IsUserId(users, id)
    ensures RefreshSession(users, session, id, amount) == session
  {
    if session.Some? && session.value.id == id {
      forall k | 0 <= k < |users| ensures users[k].id != id {
        assert users[k] in users;
      }
    }
  }

  /** A registered id is found by the last-match search. */
  lemma RegisteredIdFound(users: seq<StoredUser>, id: Id)
    requires IsUserId(users, id)
    ensures FindLast(users, HasId(id)).Some?
  {
    var u :| u in users && u.id == id;
    var k0 :| 0 <= k0 < |users| && users[k0] == u;
    assert HasId(id)(users[k0]);
  }

  lemma RefreshSessionFollowsRoster(users: seq<StoredUser>, session: Option<User>, id: Id, amount: int)
    requires session.Some? && session.value.id == id && FindLast(users, HasId(id)).Some?
    ensures var k := FindLast(users, HasId(id)).value;
            && users[k].id == id
            && RefreshSession(users, session, id, amount)
                 == Some(session.value.(balance := users[k].balance + amount))
            && RefreshSession(users, session, id, amount)
                 == Some(session.value.(balance := AdjustBalances(users, id, amount)[k].balance))
  {
    var k := FindLast(users, HasId(id)).value;
    assert HasId(id)(users[k]);
    var b := users[k].balance + amount;
    assert AdjustBalances(users, id, amount)[k].balance == b;
    assert RefreshSession(users, session, id, amount) == Some(session.value.(balance := b));
  }

  /** A balance update keeps a session signed in and changes at most its balance. */
  lemma UpdateKeepsSessionShape(st: AuthState, id: Id, amount: int)
    requires st.session.Some?
    ensures var r := UpdateUserBalance(st, id, amount).session;
            r.Some? && r.value == st.session.value.(balance := r.value.balance)
  {
  }

  /** With unique ids, a session that is the projection of entry `k` stays
      the projection of entry `k` through a balance update. */
  lemma UpdateKeepsSessionAt(st: AuthState, id: Id, amount: int, k: int)
    requires UniqueIds(st.users) && 0 <= k < |st.users| && st.session == Some(Public(st.users[k]))
    ensures var r := UpdateUserBalance(st, id, amount);
            && UniqueIds(r.users)
            && r.session == Some(Public(r.users[k]))
            && r.session.value.id == st.session.value.id
            && r.session.value.balance == st.session.value.balance + (if st.session.value.id == id then amount else 0)
  {
    var r := UpdateUserBalance(st, id, amount);
    assert UniqueIds(r.users) by {
      forall i, j | 0 <= i < j < |r.users| ensures r.users[i].id != r.users[j].id {
        assert r.users[i].id == st.users[i].id && r.users[j].id == st.users[j].id;
      }
    }
    if st.users[k].id == id {
      assert IsUserId(st.users, id) by { assert st.users[k] in st.users; }
      var k' :| 0 <= k' < |r.users| && r.users[k'].id == id
                && r.session == Some(st.session.value.(balance := r.users[k'].balance));
      assert k' == k by { assert r.users[k].id == id; }
    }
  }

  lemma RefreshSessionSynced(st: AuthState, id: Id, amount: int)
    ensures UniqueIds(st.users) && SessionSynced(st) ==>
              SessionSynced(AuthState(AdjustBalances(st.users, id, amount),
                                      RefreshSession(st.users, st.session, id, amount)))
  {
    var users' := AdjustBalances(st.users, id, amount);
    var session' := RefreshSession(st.users, st.session, id, amount);
    if UniqueIds(st.users) && SessionSynced(st) && st.session.Some? {
      var k :| 0 <= k < |st.users| && st.session.value == Public(st.users[k]);
      if st.session.value.id == id {
        var last := FindLast(st.users, HasId(id)).value;
        assert last == k;
      }
      assert session'.value == Public(users'[k]);
    }
  }

  /** `updateUserBalance`: adjusts the roster, and when the session user is
      the target refreshes the session balance from the roster. */
  function UpdateUserBalance(st: AuthState, id: Id, amount: int): (r: AuthState)
    ensures |r.users| == |st.users|
    ensures forall i :: 0 <= i < |st.users| ==>
              r.users[i] == if st.users[i].id == id
                            then st.users[i].(balance := st.users[i].balance + amount)
                            else st.users[i]
    ensures (st.session.None? || st.session.value.id != id || !IsUserId(st.users, id)) ==>
              r.session == st.session
    ensures st.session.Some? && st.session.value.id == id && IsUserId(st.users, id) ==>
              exists k :: 0 <= k < |r.users| && r.users[k].id == id &&
                          r.session == Some(st.session.value.(balance := r.users[k].balance))
    ensures UniqueIds(st.users) && SessionSynced(st) ==> SessionSynced(r)
  {
    UpdateSessionFacts(st, id, amount);
    RefreshSessionSynced(st, id, amount);
    AuthState(AdjustBalances(st.users, id, amount), RefreshSession(st.users, st.session, id, amount))
  }

  /** How `UpdateUserBalance` treats the session: untouched unless it
      belongs to the target, otherwise given the target's new balance. */
  lemma UpdateSessionFacts(st: AuthState, id: Id, amount: int)
    ensures var r := AuthState(AdjustBalances(st.users, id, amount), RefreshSession(st.users, st.session, id, amount));
            && ((st.session.None? || st.session.value.id != id || !IsUserId(st.users, id)) ==>
                  r.session == st.session)
            && (st.session.Some? && st.session.value.id == id && IsUserId(st.users, id) ==>
                  && FindLast(st.users, HasId(id)).Some?
                  && var k := FindLast(st.users, HasId(id)).value;
                     && r.users[k].id == id
                     && r.session == Some(st.session.value.(balance := r.users[k].balance)))
  {
    if st.session.None? || st.session.value.id != id || !IsUserId(st.users, id) {
      RefreshSessionUntouched(st.users, st.session, id, amount);
    } else {
      RegisteredIdFound(st.users, id);
      RefreshSessionFollowsRoster(st.users, st.session, id, amount);
      var k := FindLast(st.users, HasId(id)).value;
      assert AdjustBalances(st.users, id, amount)[k].id == id;
    }
  }

  /** The sum of all roster balances. */
  function TotalBalance(users: seq<StoredUser>): int {
    if users == [] then 0 else users[0].balance + TotalBalance(users[1..])
  }

  /** How many roster entries carry the id. */
  function CountId(users: seq<StoredUser>, id: Id): nat {
    if users == [] then 0 else (if users[0].id == id then 1 else 0) + CountId(users[1..], id)
  }

  lemma {:induction false} TotalBalanceAppend(users: seq<StoredUser>, u: StoredUser)
    ensures TotalBalance(users + [u]) == TotalBalance(users) + u.balance
  {
    if users != [] {
      assert (users + [u])[1..] == users[1..] + [u];
      TotalBalanceAppend(users[1..], u);
    }
  }

  /** A balance update moves the total by the amount once per matching entry. */
  lemma {:induction false} AdjustBalancesTotal(users: seq<StoredUser>, id: Id, amount: int)
    ensures TotalBalance(AdjustBalances(users, id, amount))
            == TotalBalance(users) + amount * CountId(users, id)
  {
    if users != [] {
      AdjustBalancesTotal(users[1..], id, amount);
      var r := AdjustBalances(users, id, amount);
      assert r[1..] == AdjustBalances(users[1..], id, amount);
      var c := CountId(users[1..], id);
      if users[0].id == id {
        assert amount * (1 + c) == amount + amount * c;
      }
    }
  }

  /** With unique ids, a registered id occurs exactly once and an
      unregistered one not at all. */
  lemma {:induction false} CountIdUnique(users: seq<StoredUser>, id: Id)
    requires UniqueIds(users)
    ensures CountId(users, id) == if IsUserId(users, id) then 1 else 0
  {
    if users != [] {
      var rest := users[1..];
      assert UniqueIds(rest) by {
        forall i, j | 0 <= i < j < |rest| ensures rest[i].id != rest[j].id {
          assert rest[i] == users[i + 1] && rest[j] == users[j + 1];
        }
      }
      CountIdUnique(rest, id);
      if users[0].id == id {
        assert !IsUserId(rest, id) by {
          forall u | u in rest ensures u.id != id {
            var k :| 0 <= k < |rest| && rest[k] == u;
            assert users[k + 1] == u;
          }
        }
        assert users[0] in users;
      } else {
        assert IsUserId(users, id) <==> IsUserId(rest, id) by {
          assert users == [users[0]] + rest;
        }
      }
    }
  }

  /** A credit followed by the matching debit restores the roster. */
  lemma AdjustBalancesInverse(users: seq<StoredUser>, id: Id, amount: int)
    ensures AdjustBalances(AdjustBalances(users, id, amount), id, -amount) == users
  {
    var once := AdjustBalances(users, id, amount);
    var twice := AdjustBalances(once, id, -amount);
    assert forall i :: 0 <= i < |users| ==> twice[i] == users[i];
  }

  /** A balance update keeps every id, name, email, password and admin flag. */
  lemma AdjustBalancesKeepsIdentity(users: seq<StoredUser>, id: Id, amount: int)
    ensures forall x :: IsUserId(AdjustBalances(users, id, amount), x) <==> IsUserId(users, x)
    ensures UniqueIds(users) ==> UniqueIds(AdjustBalances(users, id, amount))
    ensures UniqueEmails(users) ==> UniqueEmails(AdjustBalances(users, id, amount))
  {
    var r := AdjustBalances(users, id, amount);
    assert SameAccounts(users, r);
    SameAccountsKeepIdentity(users, r);
  }

  /** Two rosters hold the same accounts in the same order; only balances may differ. */
  predicate SameAccounts(before: seq<StoredUser>, after: seq<StoredUser>) {
    && |after| == |before|
    && forall k :: 0 <= k < |before| ==> after[k] == before[k].(balance := after[k].balance)
  }

  /** Rosters with the same accounts register the same ids and keep ids and
      emails unique together. */
  lemma SameAccountsKeepIdentity(before: seq<StoredUser>, after: seq<StoredUser>)
    requires SameAccounts(before, after)
    ensures forall x :: IsUserId(after, x) <==> IsUserId(before, x)
    ensures UniqueIds(before) ==> UniqueIds(after)
    ensures UniqueEmails(before) ==> UniqueEmails(after)
    ensures forall k :: 0 <= k < |after| ==> after[k].id == before[k].id
  {
    forall x ensures IsUserId(after, x) <==> IsUserId(before, x) {
      if IsUserId(after, x) {
        var u :| u in after && u.id == x;
        var k :| 0 <= k < |after| && after[k] == u;
        assert before[k] in before;
      }
      if IsUserId(before, x) {
        var u :| u in before && u.id == x;
        var k :| 0 <= k < |before| && before[k] == u;
        assert after[k] in after;
      }
    }
  }

  /** Registering keeps emails unique: the only new email is one that was free. */
  lemma RegisterKeepsEmailsUnique(st: AuthState, name: string, email: string, password: string, newId: Id)
    requires !IsUserId(st.users, newId)
    requires UniqueEmails(st.users)
    requires UniqueIds(st.users)
    ensures UniqueEmails(Register(st, name, email, password, newId).1.users)
    ensures UniqueIds(Register(st, name, email, password, newId).1.users)
  {
    var r := Register(st, name, email, password, newId);
    if !EmailTaken(st.users, email) {
      var us := r.1.users;
      forall i, j | 0 <= i < j < |us| ensures us[i].email != us[j].email && us[i].id != us[j].id {
        if j == |st.users| {
          assert us[i] == st.users[i];
          assert st.users[i] in st.users;
        } else {
          assert us[i] == st.users[i] && us[j] == st.users[j];
        }
      }
    }
  }

  /** Round trip: after a successful registration, signing in with the
      same email and password succeeds and yields the same session. */
  lemma RegisterThenLogin(st: AuthState, name: string, email: string, password: string, newId: Id)
    requires !IsUserId(st.users, newId)
    requires !EmailTaken(st.users, email)
    ensures Login(Register(st, name, email, password, newId).1, email, password)
            == (true, Register(st, name, email, password, newId).1)
  {
    var r := Register(st, name, email, password, newId).1;
    var n := |st.users|;
    assert Credentials(r.users[n], email, password);
    forall j | 0 <= j < n ensures !Credentials(r.users[j], email, password) {
      assert r.users[j] == st.users[j];
      assert st.users[j] in st.users;
    }
  }
}

=== FILE: base.dfy ===
/** Small vocabulary shared by every module: optional values, identifiers and
    the two string operations the pages search with (lower-casing and
    substring containment). */
module Base {

  /** A value that may be absent: the model's rendering of `undefined`/`null`. */
  datatype Option<+T> = None | Some(value: T)

  /** Identifiers (user ids, ticket ids, transaction ids) are opaque strings. */
  type Id = string

  /** JavaScript treats the empty string as false; the source tests ids and
      search strings this way. */
  predicate Truthy(s: string) {
    s != ""
  }

  /** An optional string that is present and non-empty. */
  predicate SomeTruthy(o: Option<string>) {
    o.Some? && Truthy(o.value)
  }

  /** Lower-casing of one character, restricted to ASCII letters. */
  function LowerChar(c: char): (r: char)
    ensures 'A' <= c <= 'Z' ==> 'a' <= r <= 'z'
    ensures !('A' <= c <= 'Z') ==> r == c
  {
    if 'A' <= c <= 'Z' then (c as int - 'A' as int + 'a' as int) as char else c
  }

  /** Lower-casing of a string, character by character. */
  function Lower(s: string): (r: string)
  {
    seq(|s|, i requires 0 <= i < |s| => LowerChar(s[i]))
  }

  /** `s.startsWith(prefix)`. */
  predicate StartsWith(s: string, prefix: string) {
    |prefix| <= |s| && s[..|prefix|] == prefix
  }

  /** `hay.includes(needle)`: some suffix of `hay` starts with `needle`. */
  predicate Contains(hay: string, needle: string) {
    exists i :: 0 <= i <= |hay| && StartsWith(hay[i..], needle)
  }

  /** `s.length` in JavaScript: strings are UTF-16, so a character outside
      the Basic Multilingual Plane takes two code units. */
  function Utf16Length(s: string): (n: nat)
    ensures |s| <= n <= 2 * |s|
  {
    if s == [] then 0 else (if s[0] as int >= 0x1_0000 then 2 else 1) + Utf16Length(s[1..])
  }

  /** For text inside the Basic Multilingual Plane, the JavaScript length is
      the number of characters. */
  lemma {:induction false} Utf16LengthBmp(s: string)
    requires forall i :: 0 <= i < |s| ==> s[i] as int < 0x1_0000
    ensures Utf16Length(s) == |s|
  {
    if s != [] {
      Utf16LengthBmp(s[1..]);
    }
  }
}

=== FILE: home.dfy ===
/** The browse page: the new/resale split of the listings on offer and the
    search filter. */
module Home {
  import opened Base
  import opened Seqs
  import opened Tickets

  predicate IsNewOffer(t: Ticket) {
    !t.isResale && t.available
  }

  predicate IsResaleOffer(t: Ticket) {
    t.isResale && t.available
  }

  predicate IsAvailable(t: Ticket) {
    t.available
  }

  /** `newTickets`: available primary listings, in listing order. */
  function NewTickets(ts: seq<Ticket>): seq<Ticket> {
    Filter(ts, IsNewOffer)
  }

  /** `resaleTickets`: available resale listings, in listing order. */
  function ResaleTickets(ts: seq<Ticket>): seq<Ticket> {
    Filter(ts, IsResaleOffer)
  }

  /** Every available ticket is shown by default. */
  function AvailableTickets(ts: seq<Ticket>): seq<Ticket> {
    Filter(ts, IsAvailable)
  }

  /** The two sections split the available tickets: nothing is in both,
      everything available is in one, and the counts add up. */
  lemma NewAndResalePartitionAvailable(ts: seq<Ticket>)
    ensures forall t :: !(t in NewTickets(ts) && t in ResaleTickets(ts))
    ensures forall t :: t in NewTickets(ts) || t in ResaleTickets(ts) <==> t in AvailableTickets(ts)
    ensures |NewTickets(ts)| + |ResaleTickets(ts)| == |AvailableTickets(ts)|
  {
    FilterSplit(ts, IsNewOffer, IsResaleOffer, IsAvailable);
  }

  /** The filter form: an optional type, a free-text query and an optional
      price range. */
  datatype Criteria = Criteria(ttype: Option<TicketType>, query: string,
                               minPrice: Option<int>, maxPrice: Option<int>)

  const NoCriteria := Criteria(None, "", None, None)

  /** The query occurs, case-insensitively, in the title, description or location. */
  predicate MatchesQuery(t: Ticket, query: string) {
    var q := Lower(query);
    Contains(Lower(t.title), q) || Contains(Lower(t.description), q) || Contains(Lower(t.location), q)
  }

  /** The checks of `handleFilter`, in its order: type, query, minimum,
      maximum, and finally availability. */
  predicate Matches(t: Ticket, c: Criteria) {
    && (c.ttype.None? || t.ttype == c.ttype.value)
    && (!Truthy(c.query) || MatchesQuery(t, c.query))
    && (c.minPrice.None? || t.price >= c.minPrice.value)
    && (c.maxPrice.None? || t.price <= c.maxPrice.value)
    && t.available
  }

  /** `handleFilter`: the listings meeting every given criterion, in order. */
  function HandleFilter(ts: seq<Ticket>, c: Criteria): (r: seq<Ticket>)
    ensures IsSubsequence(r, ts)
    ensures forall t :: t in r ==> t.available
    ensures forall t :: t in r && c.ttype.Some? ==> t.ttype == c.ttype.value
    ensures forall t :: t in r && c.minPrice.Some? ==> t.price >= c.minPrice.value
    ensures forall t :: t in r && c.maxPrice.Some? ==> t.price <= c.maxPrice.value
    ensures forall t :: t in r && Truthy(c.query) ==>
              || Contains(Lower(t.title), Lower(c.query))
              || Contains(Lower(t.description), Lower(c.query))
              || Contains(Lower(t.location), Lower(c.query))
    ensures forall t :: t in ts && Matches(t, c) ==> t in r
    ensures forall t :: t in ts ==> multiset(r)[t] == if Matches(t, c) then multiset(ts)[t] else 0
  {
    Filter(ts, (t: Ticket) => Matches(t, c))
  }

  /** With no criteria the filter shows exactly the available tickets. */
  lemma NoCriteriaShowsAvailable(ts: seq<Ticket>)
    ensures HandleFilter(ts, NoCriteria) == AvailableTickets(ts)
  {
    FilterCongruent(ts, (t: Ticket) => Matches(t, NoCriteria), IsAvailable);
  }

  /** `displayTickets`: the last filter result once a filter has run,
      otherwise the available tickets. */
  function DisplayTickets(ts: seq<Ticket>, filtered: Option<seq<Ticket>>): seq<Ticket> {
    match filtered
    case Some(f) => f
    case None => AvailableTickets(ts)
  }

  /** Whatever the page shows, computed from the current listings, is an
      in-order selection of available tickets. */
  lemma DisplayShowsAvailable(ts: seq<Ticket>, c: Option<Criteria>)
    ensures var shown := DisplayTickets(ts, if c.Some? then Some(HandleFilter(ts, c.value)) else None);
            && IsSubsequence(shown, ts)
            && forall t :: t in shown ==> t.available
  {
  }
}

=== FILE: register_page.dfy ===
/** The sign-up page: the form checks that run before `register` and the
    messages shown for each outcome. */
module RegisterPage {
  import opened Base
  import opened Auth

  datatype RegisterForm = RegisterForm(name: string, email: string, password: string, confirmPassword: string)

  const MinPasswordLength: nat := 8
  const FillFieldsError := "Please fill in all fields"
  const PasswordLengthError := "Password must be at least 8 characters long"
  const MismatchError := "Passwords do not match"
  const EmailInUseError := "Registration failed. Email might already be in use."

  /** `validatePassword`: at least eight UTF-16 code units, and nothing
      else. */
  function ValidatePassword(p: string): (r: bool)
    ensures r <==> Utf16Length(p) >= 8
  {
    Utf16Length(p) >= MinPasswordLength
  }

  /** What the length rule means in characters: eight characters always
      pass, fewer than four never do, and for text inside the Basic
      Multilingual Plane the rule is exactly "eight characters or more". */
  lemma ValidatePasswordChars(p: string)
    ensures |p| >= 8 ==> ValidatePassword(p)
    ensures |p| < 4 ==> !ValidatePassword(p)
    ensures (forall i :: 0 <= i < |p| ==> p[i] as int < 0x1_0000) ==> (ValidatePassword(p) <==> |p| >= 8)
  {
    if forall i :: 0 <= i < |p| ==> p[i] as int < 0x1_0000 {
      Utf16LengthBmp(p);
    }
  }

  /** Four emoji make eight code units and pass; seven ASCII letters do not. */
  lemma ValidatePasswordExamples()
    ensures ValidatePassword("\U{1F600}\U{1F600}\U{1F600}\U{1F600}")
    ensures !ValidatePassword("letmein")
  {
    assert Utf16Length("\U{1F600}\U{1F600}\U{1F600}\U{1F600}") == 8;
    assert Utf16Length("letmein") == 7;
  }

  predicate AnyFieldEmpty(f: RegisterForm) {
    !Truthy(f.name) || !Truthy(f.email) || !Truthy(f.password) || !Truthy(f.confirmPassword)
  }

  datatype SignUpResult = SignUpRejected(message: string) | SignedUp

  /** `handleSubmit`: the three form checks in order; only a form passing
      all of them reaches `register`, whose refusal is reported as an email
      conflict. */
  function SubmitRegistration(st: AuthState, f: RegisterForm, newId: Id): (r: (SignUpResult, AuthState))
    requires !IsUserId(st.users, newId)
    ensures AnyFieldEmpty(f) ==> r == (SignUpRejected(FillFieldsError), st)
    ensures !AnyFieldEmpty(f) && Utf16Length(f.password) < 8 ==> r == (SignUpRejected(PasswordLengthError), st)
    ensures !AnyFieldEmpty(f) && Utf16Length(f.password) >= 8 && f.password != f.confirmPassword ==>
              r == (SignUpRejected(MismatchError), st)
    ensures r.0.SignedUp? <==>
              !AnyFieldEmpty(f) && Utf16Length(f.password) >= 8 && f.password == f.confirmPassword
              && !EmailTaken(st.users, f.email)
    ensures r.0.SignedUp? ==>
              && r.1.users == st.users + [StoredUser(newId, f.name, f.email, f.password, StartingBalance, false)]
              && r.1.session == Some(User(newId, f.name, f.email, StartingBalance, false))
    ensures r.0.SignUpRejected? ==> r.1 == st
    ensures r.0 == SignUpRejected(EmailInUseError) <==>
              !AnyFieldEmpty(f) && Utf16Length(f.password) >= 8 && f.password == f.confirmPassword
              && EmailTaken(st.users, f.email)
  {
    if AnyFieldEmpty(f) then (SignUpRejected(FillFieldsError), st)
    else if !ValidatePassword(f.password) then (SignUpRejected(PasswordLengthError), st)
    else if f.password != f.confirmPassword then (SignUpRejected(MismatchError), st)
    else
      var (ok, st') := Register(st, f.name, f.email, f.password, newId);
      if ok then (SignedUp, st') else (SignUpRejected(EmailInUseError), st)
  }

  /** A completed sign-up can be followed by a sign-in with the same
      credentials, which changes nothing. */
  lemma SignUpThenSignIn(st: AuthState, f: RegisterForm, newId: Id)
    requires !IsUserId(st.users, newId)
    ensures var (res, st') := SubmitRegistration(st, f, newId);
            res.SignedUp? ==> Login(st', f.email, f.password) == (true, st')
  {
    var (res, st') := SubmitRegistration(st, f, newId);
    if res.SignedUp? {
      RegisterThenLogin(st, f.name, f.email, f.password, newId);
    }
  }
}

=== FILE: sell.dfy ===
/** The sell page: validating the listing form, the choice of a ticket to
    resell, and the hand-over to `addTicket`. */
module Sell {
  import opened Base
  import opened Seqs
  import opened Tickets
  import opened Store

  /** A position in the list of sample pictures. */
  type ImageIndex = i: int | 0 <= i < 6

  /** The form's state. `price` is the raw text of the price box. */
  datatype SellForm = SellForm(isNewTicket: bool, selected: Option<Id>, title: string,
                               description: string, price: string, date: string, time: string,
                               location: string, ttype: TicketType, imageIndex: ImageIndex)

  const SelectTicketError := "Please select a ticket to resell"
  const FillFieldsError := "Please fill in all fields"
  const PriceError := "Please enter a valid price"
  const CreateError := "Failed to create ticket. Please try again."

  /** What `handleSubmit` does with the form: show an error, or call
      `addTicket` with these fields and this existing-ticket id. */
  datatype SellDecision = SellError(message: string) | CallAddTicket(fields: ListingFields, existing: Option<Id>)

  predicate AnyFieldEmpty(f: SellForm) {
    !Truthy(f.title) || !Truthy(f.description) || !Truthy(f.price)
    || !Truthy(f.date) || !Truthy(f.time) || !Truthy(f.location)
  }

  /** The resell tab is open but no ticket is chosen. */
  predicate MissingSelection(f: SellForm) {
    !f.isNewTicket && !SomeTruthy(f.selected)
  }

  /** A parsed price the page accepts: a number above zero. `parse` stands
      for `parseFloat`, with `NaN` rendered as `None`. */
  predicate ValidPrice(parse: string -> Option<int>, text: string) {
    parse(text).Some? && parse(text).value > 0
  }

  /** The checks of `handleSubmit`, in its order. */
  function ValidateListing(f: SellForm, parse: string -> Option<int>): (r: SellDecision)
    ensures MissingSelection(f) ==> r == SellError(SelectTicketError)
    ensures !MissingSelection(f) && AnyFieldEmpty(f) ==> r == SellError(FillFieldsError)
    ensures !MissingSelection(f) && !AnyFieldEmpty(f) && !ValidPrice(parse, f.price) ==> r == SellError(PriceError)
    ensures r.CallAddTicket? <==> !MissingSelection(f) && !AnyFieldEmpty(f) && ValidPrice(parse, f.price)
    ensures r.CallAddTicket? ==>
              && r.fields.title == f.title && r.fields.description == f.description
              && r.fields.price == parse(f.price).value && r.fields.price > 0
              && r.fields.date == f.date + "T" + f.time
              && r.fields.location == f.location && r.fields.ttype == f.ttype
              && r.fields.image == SampleImages[f.imageIndex]
              && r.existing == (if f.isNewTicket then None else f.selected)
              && (!f.isNewTicket ==> SomeTruthy(r.existing))
  {
    if MissingSelection(f) then SellError(SelectTicketError)
    else if AnyFieldEmpty(f) then SellError(FillFieldsError)
    else if !ValidPrice(parse, f.price) then SellError(PriceError)
    else
      CallAddTicket(ListingFields(f.title, f.description, parse(f.price).value, f.date + "T" + f.time,
                                  f.location, f.ttype, SampleImages[f.imageIndex]),
                    if !f.isNewTicket then f.selected else None)
  }

  /** The outcome the seller sees. */
  datatype SellResult = SellRejected(message: string) | SellListed(id: Id)

  /** `handleSubmit` against the application state: validation, then
      `addTicket`, whose refusal of a signed-out caller is caught and shown
      as the generic failure. */
  function SubmitListing(s: AppState, f: SellForm, parse: string -> Option<int>, newId: Id, now: nat)
    : (r: (SellResult, AppState))
    requires FreshTicketId(s.market, newId)
    ensures ValidateListing(f, parse).SellError? ==> r == (SellRejected(ValidateListing(f, parse).message), s)
    ensures ValidateListing(f, parse).CallAddTicket? && s.auth.session.None? ==> r == (SellRejected(CreateError), s)
    ensures r.0.SellListed? <==> ValidateListing(f, parse).CallAddTicket? && s.auth.session.Some?
    ensures r.0.SellListed? ==>
              var n := |s.market.tickets|;
              && r.0.id == newId
              && |r.1.market.tickets| == n + 1
              && r.1.market.tickets[..n] == s.market.tickets
              && r.1.market.tickets[n].id == newId
              && r.1.market.tickets[n].sellerId == s.auth.session.value.id
              && r.1.market.tickets[n].date == f.date + "T" + f.time
              && r.1.market.tickets[n].price == parse(f.price).value
              && r.1.market.tickets[n].image == SampleImages[f.imageIndex]
              && (r.1.market.tickets[n].isResale <==> !f.isNewTicket)
              && r.1.market.tickets[n].originalTicketId == (if f.isNewTicket then None else f.selected)
    ensures r.0.SellListed? ==>
              var n := |s.market.tickets|;
              && r.1.auth == s.auth
              && r.1.market.transactions == s.market.transactions
              && r.1.market.ownerships == s.market.ownerships + [OwnershipRecord(newId, s.auth.session.value.id, now)]
              && r.1.market.tickets[n].title == f.title
              && r.1.market.tickets[n].description == f.description
              && r.1.market.tickets[n].location == f.location
              && r.1.market.tickets[n].ttype == f.ttype
              && r.1.market.tickets[n].available
  {
    match ValidateListing(f, parse)
    case SellError(msg) => (SellRejected(msg), s)
    case CallAddTicket(fields, existing) =>
      match AddTicket(s.market, s.auth.session, fields, existing, newId, now)
      case NotSignedIn => (SellRejected(CreateError), s)
      case Listed(id, m) => (SellListed(id), s.(market := m))
  }

  /** `availableTicketsForResale`: the user's tickets that are not
      themselves resale listings. */
  function ResaleCandidates(userTickets: seq<Ticket>): (r: seq<Ticket>)
    ensures IsSubsequence(r, userTickets)
    ensures forall t :: t in r <==> t in userTickets && !t.isResale
    ensures forall t :: t in userTickets ==> multiset(r)[t] == if t.isResale then 0 else multiset(userTickets)[t]
  {
    Filter(userTickets, (t: Ticket) => !t.isResale)
  }

  /** `sampleTicketImages.indexOf(image)`, falling back to the first picture. */
  function ImageIndexOf(image: string): (r: ImageIndex)
    ensures image in SampleImages ==> SampleImages[r] == image && forall j :: 0 <= j < r ==> SampleImages[j] != image
    ensures image !in SampleImages ==> r == 0
  {
    match FindIndex(SampleImages, (x: string) => x == image)
    case Some(i) => i
    case None => 0
  }

  /** The six sample pictures are distinct, so every picture choice is
      recovered from its address. */
  lemma ImageIndexOfSample(i: ImageIndex)
    ensures ImageIndexOf(SampleImages[i]) == i
  {
    assert SampleImages[i] in SampleImages;
  }

  /** `handleExistingTicketSelect`: a ticket id found among the user's
      tickets fills the form from that ticket; any other id changes nothing.
      `showPrice` renders a price as text and `splitDate` cuts a stored date
      into its date and time-of-day parts. */
  function SelectExisting(f: SellForm, userTickets: seq<Ticket>, id: Id,
                          showPrice: int -> string, splitDate: string -> (string, string)): (r: SellForm)
    ensures (forall k :: 0 <= k < |userTickets| ==> userTickets[k].id != id) ==> r == f
    ensures forall k :: 0 <= k < |userTickets| && userTickets[k].id == id
                        && (forall j :: 0 <= j < k ==> userTickets[j].id != id) ==>
              var t := userTickets[k];
                   r == f.(selected := Some(id), title := t.title, description := t.description,
                           price := showPrice(t.price), date := splitDate(t.date).0,
                           time := splitDate(t.date).1, location := t.location, ttype := t.ttype,
                           imageIndex := ImageIndexOf(t.image))
  {
    match Find(userTickets, (t: Ticket) => t.id == id)
    case None => f
    case Some(t) =>
      f.(selected := Some(id), title := t.title, description := t.description,
         price := showPrice(t.price), date := splitDate(t.date).0, time := splitDate(t.date).1,
         location := t.location, ttype := t.ttype, imageIndex := ImageIndexOf(t.image))
  }

  /** Choosing one of one's tickets on the resell tab and submitting the
      form as filled in relists that ticket: same title, description,
      location, type and price, the original's id as `existing`, and the
      same picture when it is one of the samples. */
  lemma SelectThenSubmit(f: SellForm, userTickets: seq<Ticket>, k: nat,
                         showPrice: int -> string, splitDate: string -> (string, string),
                         parse: string -> Option<int>)
    requires k < |userTickets|
    requires forall j :: 0 <= j < k ==> userTickets[j].id != userTickets[k].id
    requires !f.isNewTicket && Truthy(userTickets[k].id)
    requires var t := userTickets[k];
             && Truthy(t.title) && Truthy(t.description) && Truthy(t.location)
             && Truthy(showPrice(t.price)) && Truthy(splitDate(t.date).0) && Truthy(splitDate(t.date).1)
             && t.price > 0 && parse(showPrice(t.price)) == Some(t.price)
    ensures var t := userTickets[k];
            var d := ValidateListing(SelectExisting(f, userTickets, t.id, showPrice, splitDate), parse);
            && d.CallAddTicket?
            && d.existing == Some(t.id)
            && d.fields.title == t.title && d.fields.description == t.description
            && d.fields.location == t.location && d.fields.ttype == t.ttype
            && d.fields.price == t.price
            && (t.image in SampleImages ==> d.fields.image == t.image)
  {
    var t := userTickets[k];
    var g := SelectExisting(f, userTickets, t.id, showPrice, splitDate);
    assert g.selected == Some(t.id);
    assert exists j :: 0 <= j < |userTickets| && userTickets[j].id == t.id;
    var j :| 0 <= j < |userTickets| && userTickets[j].id == t.id
             && (forall i :: 0 <= i < j ==> userTickets[i].id != t.id)
             && g == f.(selected := Some(t.id), title := userTickets[j].title,
                        description := userTickets[j].description,
                        price := showPrice(userTickets[j].price), date := splitDate(userTickets[j].date).0,
                        time := splitDate(userTickets[j].date).1, location := userTickets[j].location,
                        ttype := userTickets[j].ttype, imageIndex := ImageIndexOf(userTickets[j].image));
    assert j == k;
  }
}

=== FILE: seqs.dfy ===
/** The array operations the source builds its views from, stated once and
    reused: `Array.prototype.filter`, `find`/`findIndex`, a last-match search,
    and the stable `sort` the admin tables use. */
module Seqs {
  import opened Base

  /** `a` is `b` with some elements deleted, order kept. */
  predicate IsSubsequence<T(==)>(a: seq<T>, b: seq<T>)
    decreases |b|
  {
    if a == [] then true
    else if b == [] then false
    else (a[0] == b[0] && IsSubsequence(a[1..], b[1..])) || IsSubsequence(a, b[1..])
  }

  /** Every sequence is a subsequence of itself. */
  lemma {:induction false} SubsequenceOfSelf<T>(s: seq<T>)
    ensures IsSubsequence(s, s)
  {
    if s != [] {
      SubsequenceOfSelf(s[1..]);
    }
  }

  /** `s.filter(p)`: keeps, in order, exactly the elements satisfying `p`,
      each as often as it occurs in `s`. */
  function Filter<T(==)>(s: seq<T>, p: T -> bool): (r: seq<T>)
    ensures |r| <= |s|
    ensures IsSubsequence(r, s)
    ensures forall x :: x in r ==> x in s && p(x)
    ensures forall x :: x in s && p(x) ==> x in r
    ensures forall x :: x in s ==> multiset(r)[x] == if p(x) then multiset(s)[x] else 0
  {
    if s == [] then []
    else
      assert s == [s[0]] + s[1..];
      if p(s[0]) then [s[0]] + Filter(s[1..], p)
      else Filter(s[1..], p)
  }

  /** Filters with predicates that agree on every element of `s` agree. */
  lemma {:induction false} FilterCongruent<T>(s: seq<T>, p: T -> bool, q: T -> bool)
    requires forall i :: 0 <= i < |s| ==> p(s[i]) == q(s[i])
    ensures Filter(s, p) == Filter(s, q)
  {
    if s != [] {
      FilterCongruent(s[1..], p, q);
    }
  }

  /** Two predicates that never hold together split a filter's output:
      the lengths add up to that of filtering with their disjunction. */
  lemma {:induction false} FilterSplit<T>(s: seq<T>, p: T -> bool, q: T -> bool, pq: T -> bool)
    requires forall x :: !(p(x) && q(x))
    requires forall x :: pq(x) == (p(x) || q(x))
    ensures |Filter(s, p)| + |Filter(s, q)| == |Filter(s, pq)|
  {
    if s != [] {
      FilterSplit(s[1..], p, q, pq);
    }
  }

  /** `s.findIndex(p)`, with `-1` rendered as `None`: the FIRST match. */
  function FindIndex<T>(s: seq<T>, p: T -> bool): (r: Option<nat>)
    ensures r.Some? ==> r.value < |s| && p(s[r.value])
    ensures r.Some? ==> forall j :: 0 <= j < r.value ==> !p(s[j])
    ensures r.None? <==> forall j :: 0 <= j < |s| ==> !p(s[j])
  {
    if s == [] then None
    else if p(s[0]) then Some(0)
    else match FindIndex(s[1..], p)
      case None => None
      case Some(i) => Some(i + 1)
  }

  /** `s.find(p)`: the first element satisfying `p`, if any. */
  function Find<T>(s: seq<T>, p: T -> bool): (r: Option<T>)
    ensures r.Some? <==> exists j :: 0 <= j < |s| && p(s[j])
    ensures r.Some? ==> exists j :: 0 <= j < |s| && s[j] == r.value && p(r.value)
                                      && forall k :: 0 <= k < j ==> !p(s[k])
  {
    match FindIndex(s, p)
    case None => None
    case Some(i) => Some(s[i])
  }

  /** The LAST index whose element satisfies `p`. */
  function FindLast<T>(s: seq<T>, p: T -> bool): (r: Option<nat>)
    ensures r.Some? ==> r.value < |s| && p(s[r.value])
    ensures r.Some? ==> forall j :: r.value < j < |s| ==> !p(s[j])
    ensures r.None? <==> forall j :: 0 <= j < |s| ==> !p(s[j])
  {
    if s == [] then None
    else if p(s[|s| - 1]) then Some(|s| - 1)
    else FindLast(s[..|s| - 1], p)
  }

  /** `s` is ordered by `key`, smallest first. */
  predicate SortedBy<T>(s: seq<T>, key: T -> int) {
    forall i, j :: 0 <= i < j < |s| ==> key(s[i]) <= key(s[j])
  }

  /** Prepending an element no larger than any other keeps a sequence sorted. */
  lemma SortedCons<T>(h: T, t: seq<T>, key: T -> int)
    requires SortedBy(t, key)
    requires forall i :: 0 <= i < |t| ==> key(h) <= key(t[i])
    ensures SortedBy([h] + t, key)
  {
    var r := [h] + t;
    forall i, j | 0 <= i < j < |r|
      ensures key(r[i]) <= key(r[j])
    {
      assert r[j] == t[j - 1];
      if i > 0 {
        assert r[i] == t[i - 1];
      }
    }
  }

  /** Inserts `x` in front of the first element whose key is not smaller:
      an element placed later in the input never overtakes an earlier one
      with an equal key. */
  function Insert<T>(x: T, s: seq<T>, key: T -> int): seq<T> {
    if s == [] then [x]
    else if key(x) <= key(s[0]) then [x] + s
    else [s[0]] + Insert(x, s[1..], key)
  }

  /** Insertion adds exactly `x`: one more element, the same multiset plus `x`. */
  lemma {:induction false} InsertPermutes<T>(x: T, s: seq<T>, key: T -> int)
    ensures |Insert(x, s, key)| == |s| + 1
    ensures multiset(Insert(x, s, key)) == multiset(s) + multiset{x}
  {
    if s != [] && key(x) > key(s[0]) {
      InsertPermutes(x, s[1..], key);
      assert s == [s[0]] + s[1..];
    }
  }

  /** Every element of the result is `x` or comes from `s`. */
  lemma {:induction false} InsertMembers<T>(x: T, s: seq<T>, key: T -> int)
    ensures forall y :: y in Insert(x, s, key) ==> y == x || y in s
  {
    if s != [] && key(x) > key(s[0]) {
      InsertMembers(x, s[1..], key);
    }
  }

  /** Insertion into a sorted sequence keeps it sorted. */
  lemma {:induction false} InsertSorted<T>(x: T, s: seq<T>, key: T -> int)
    requires SortedBy(s, key)
    ensures SortedBy(Insert(x, s, key), key)
  {
    if s == [] {
    } else if key(x) <= key(s[0]) {
      SortedCons(x, s, key);
    } else {
      var tail := s[1..];
      assert SortedBy(tail, key);
      InsertSorted(x, tail, key);
      InsertMembers(x, tail, key);
      var rest := Insert(x, tail, key);
      forall i | 0 <= i < |rest|
        ensures key(s[0]) <= key(rest[i])
      {
        assert rest[i] in rest;
        if rest[i] != x {
          var k :| 0 <= k < |tail| && tail[k] == rest[i];
          assert s[k + 1] == rest[i];
        }
      }
      SortedCons(s[0], rest, key);
    }
  }

  /** A stable sort by an integer key (insertion sort). The source's
      comparators are all differences of such a key, so this is the order
      `Array.prototype.sort` (stable since ES2019) produces. */
  function Sort<T>(s: seq<T>, key: T -> int): (r: seq<T>)
    ensures |r| == |s|
    ensures SortedBy(r, key)
    ensures multiset(r) == multiset(s)
  {
    if s == [] then []
    else
      var sortedTail := Sort(s[1..], key);
      SortStep(s, sortedTail, key);
      Insert(s[0], sortedTail, key)
  }

  /** One step of insertion sort: inserting the head into the sorted tail
      gives a sorted permutation of the whole sequence. */
  lemma SortStep<T>(s: seq<T>, sortedTail: seq<T>, key: T -> int)
    requires s != []
    requires SortedBy(sortedTail, key)
    requires |sortedTail| == |s| - 1
    requires multiset(sortedTail) == multiset(s[1..])
    ensures |Insert(s[0], sortedTail, key)| == |s|
    ensures SortedBy(Insert(s[0], sortedTail, key), key)
    ensures multiset(Insert(s[0], sortedTail, key)) == multiset(s)
  {
    InsertPermutes(s[0], sortedTail, key);
    InsertSorted(s[0], sortedTail, key);
    assert s == [s[0]] + s[1..];
  }

  /** The elements whose key is `v`. */
  function KeyIs<T>(key: T -> int, v: int): T -> bool {
    (x: T) => key(x) == v
  }

  /** Insertion places `x` in front of every element with its key, so among
      the elements of one key it comes first and the rest keep their order. */
  lemma {:induction false} FilterKeyInsert<T>(x: T, s: seq<T>, key: T -> int, v: int)
    ensures Filter(Insert(x, s, key), KeyIs(key, v))
            == (if key(x) == v then [x] else []) + Filter(s, KeyIs(key, v))
  {
    var p := KeyIs(key, v);
    if s == [] {
      assert Filter([x], p) == (if p(x) then [x] else []) + Filter([x][1..], p);
    } else if key(x) <= key(s[0]) {
      assert ([x] + s)[1..] == s;
    } else {
      var rest := Insert(x, s[1..], key);
      FilterKeyInsert(x, s[1..], key, v);
      assert ([s[0]] + rest)[1..] == rest;
      if key(x) == v {
        assert !p(s[0]);
      }
    }
  }

  /** `Sort` is stable: the elements of any one key come out in input order. */
  lemma {:induction false} SortStable<T>(s: seq<T>, key: T -> int, v: int)
    ensures Filter(Sort(s, key), KeyIs(key, v)) == Filter(s, KeyIs(key, v))
  {
    if s != [] {
      SortStable(s[1..], key, v);
      FilterKeyInsert(s[0], Sort(s[1..], key), key, v);
    }
  }

  /** Stability stated for any predicate that picks out exactly one key. */
  lemma SortStableFor<T>(s: seq<T>, key: T -> int, v: int, q: T -> bool)
    requires forall i :: 0 <= i < |s| ==> q(s[i]) == (key(s[i]) == v)
    ensures Filter(Sort(s, key), q) == Filter(s, q)
  {
    var r := Sort(s, key);
    var p := KeyIs(key, v);
    SortStable(s, key, v);
    forall i | 0 <= i < |r| ensures p(r[i]) == q(r[i]) {
      assert r[i] in multiset(s);
      var j :| 0 <= j < |s| && s[j] == r[i];
    }
    FilterCongruent(r, p, q);
    FilterCongruent(s, p, q);
  }

  /** Sorting input that is already in key order changes nothing; in
      particular a constant key (a comparator that always answers 0)
      leaves the input as it was. */
  lemma {:induction false} SortOfSorted<T>(s: seq<T>, key: T -> int)
    requires SortedBy(s, key)
    ensures Sort(s, key) == s
  {
    if s != [] {
      SortOfSorted(s[1..], key);
      assert s == [s[0]] + s[1..];
    }
  }
}

=== FILE: store.dfy ===
/** The two stores together. A purchase is the marketplace update followed
    by the two balance updates it issues (credit the seller, debit the
    buyer), with the session user as the acting user. Any sequence of
    operations from the seeded state keeps the invariants below. */
module Store {
  import opened Base
  import opened Seqs
  import opened Auth
  import opened Tickets

  datatype AppState = AppState(auth: AuthState, market: Market)

  /** Both stores as seeded on first run; `t0` is the seeding time. */
  function Seed(t0: nat): AppState {
    AppState(SeedAuth(), SeedMarket(t0))
  }

  /** `addTicket` called with the session user. `None` is the thrown error. */
  function ListTicket(s: AppState, fields: ListingFields, existing: Option<Id>, newId: Id, now: nat)
    : (r: (Option<Id>, AppState))
    requires FreshTicketId(s.market, newId)
    ensures s.auth.session.None? ==> r == (None, s)
    ensures s.auth.session.Some? ==>
              && r.0 == Some(newId)
              && r.1.auth == s.auth
              && r.1.market.transactions == s.market.transactions
              && r.1.market.ownerships == s.market.ownerships + [OwnershipRecord(newId, s.auth.session.value.id, now)]
              && |r.1.market.tickets| == |s.market.tickets| + 1
              && r.1.market.tickets[..|s.market.tickets|] == s.market.tickets
              && r.1.market.tickets[|s.market.tickets|].available
              && r.1.market.tickets[|s.market.tickets|].id == newId
  {
    match AddTicket(s.market, s.auth.session, fields, existing, newId, now)
    case NotSignedIn => (None, s)
    case Listed(id, m) => (Some(id), s.(market := m))
  }

  /** The roster after crediting `seller` and debiting `buyer` by `price`. */
  predicate BalancesSettled(before: seq<StoredUser>, after: seq<StoredUser>, seller: Id, buyer: Id, price: int) {
    && |after| == |before|
    && forall k :: 0 <= k < |before| ==>
         after[k] == before[k].(balance := before[k].balance
                                           + (if before[k].id == seller then price else 0)
                                           - (if before[k].id == buyer then price else 0))
  }

  /** `purchaseTicket` end to end. A refusal changes nothing. A success
      applies the marketplace update, then credits the recorded owner and
      debits the buyer by the ticket price. */
  function Purchase(s: AppState, tid: Id, txId: Id, now: nat): (r: (bool, AppState))
    ensures r.0 <==> PurchaseTicket(s.market, s.auth.session, tid, txId, now).Bought?
    ensures !r.0 ==> r.1 == s
    ensures r.0 ==>
              var b := PurchaseTicket(s.market, s.auth.session, tid, txId, now);
              && r.1.market == b.market
              && BalancesSettled(s.auth.users, r.1.auth.users, b.sellerId, s.auth.session.value.id, b.price)
    ensures UniqueIds(s.auth.users) && SessionSynced(s.auth) ==> SessionSynced(r.1.auth)
    ensures r.0 ==> r.1.auth.session.Some?
                    && r.1.auth.session.value == s.auth.session.value.(balance := r.1.auth.session.value.balance)
    ensures r.0 && UniqueIds(s.auth.users) && SessionSynced(s.auth) ==>
              var b := PurchaseTicket(s.market, s.auth.session, tid, txId, now);
              r.1.auth.session.value.balance
                == s.auth.session.value.balance + (if b.sellerId == s.auth.session.value.id then b.price else 0) - b.price
  {
    match PurchaseTicket(s.market, s.auth.session, tid, txId, now)
    case Rejected => (false, s)
    case Bought(m, seller, price) =>
      var buyer := s.auth.session.value.id;
      var settled := Settle(s.auth, seller, buyer, price);
      SettleBalances(s.auth, seller, buyer, price);
      SettleKeepsSessionSynced(s.auth, seller, buyer, price);
      SettleSession(s.auth, seller, buyer, price);
      (true, AppState(settled, m))
  }

  /** The two balance updates a purchase issues, in the store's order. */
  function Settle(st: AuthState, seller: Id, buyer: Id, price: int): AuthState {
    UpdateUserBalance(UpdateUserBalance(st, seller, price), buyer, -price)
  }

  lemma SettleBalances(st: AuthState, seller: Id, buyer: Id, price: int)
    ensures BalancesSettled(st.users, Settle(st, seller, buyer, price).users, seller, buyer, price)
  {
    var credited := AdjustBalances(st.users, seller, price);
    var debited := AdjustBalances(credited, buyer, -price);
    assert Settle(st, seller, buyer, price).users == debited;
    forall k | 0 <= k < |st.users|
      ensures debited[k] == st.users[k].(balance := st.users[k].balance
                                     + (if st.users[k].id == seller then price else 0)
                                     - (if st.users[k].id == buyer then price else 0))
    {
      assert credited[k].id == st.users[k].id;
    }
  }

  lemma SettleKeepsSessionSynced(st: AuthState, seller: Id, buyer: Id, price: int)
    ensures UniqueIds(st.users) && SessionSynced(st) ==> SessionSynced(Settle(st, seller, buyer, price))
  {
    if UniqueIds(st.users) && SessionSynced(st) {
      var credited := UpdateUserBalance(st, seller, price);
      AdjustBalancesKeepsIdentity(st.users, seller, price);
      assert credited.users == AdjustBalances(st.users, seller, price);
    }
  }

  /** The buyer stays signed in through both balance updates, and only the
      session's balance can change. When the session matched its unique
      roster entry, it ends with that entry's settled balance: debited by
      the price, and credited as well when the buyer was also the seller. */
  lemma SettleSession(st: AuthState, seller: Id, buyer: Id, price: int)
    requires st.session.Some? && st.session.value.id == buyer
    ensures var r := Settle(st, seller, buyer, price).session;
            r.Some? && r.value == st.session.value.(balance := r.value.balance)
    ensures UniqueIds(st.users) && SessionSynced(st) ==>
              Settle(st, seller, buyer, price).session.value.balance
                == st.session.value.balance + (if seller == buyer then price else 0) - price
  {
    var c := UpdateUserBalance(st, seller, price);
    UpdateKeepsSessionShape(st, seller, price);
    UpdateKeepsSessionShape(c, buyer, -price);
    if UniqueIds(st.users) && SessionSynced(st) {
      var k :| 0 <= k < |st.users| && st.session.value == Public(st.users[k]);
      SettleSessionAt(st, seller, buyer, price, k);
    }
  }

  /** The synced case of `SettleSession`, with the session's roster position named. */
  lemma SettleSessionAt(st: AuthState, seller: Id, buyer: Id, price: int, k: int)
    requires UniqueIds(st.users) && 0 <= k < |st.users| && st.session == Some(Public(st.users[k]))
    requires st.users[k].id == buyer
    ensures Settle(st, seller, buyer, price).session.Some?
    ensures Settle(st, seller, buyer, price).session.value.balance
              == st.session.value.balance + (if seller == buyer then price else 0) - price
  {
    var c := UpdateUserBalance(st, seller, price);
    UpdateKeepsSessionAt(st, seller, price, k);
    UpdateKeepsSessionAt(c, buyer, -price, k);
  }

  /** Settling leaves the accounts themselves alone. */
  lemma SettledSameAccounts(before: seq<StoredUser>, after: seq<StoredUser>, seller: Id, buyer: Id, price: int)
    requires BalancesSettled(before, after, seller, buyer, price)
    ensures SameAccounts(before, after)
  {
  }

  /** Settling moves the total by the price once per seller entry and back
      once per buyer entry. */
  lemma {:induction false} SettledTotal(before: seq<StoredUser>, after: seq<StoredUser>, seller: Id, buyer: Id, price: int)
    requires BalancesSettled(before, after, seller, buyer, price)
    ensures TotalBalance(after)
            == TotalBalance(before) + price * CountId(before, seller) - price * CountId(before, buyer)
  {
    if before != [] {
      var b', a' := before[1..], after[1..];
      assert BalancesSettled(b', a', seller, buyer, price) by {
        forall k | 0 <= k < |b'|
          ensures a'[k] == b'[k].(balance := b'[k].balance
                                             + (if b'[k].id == seller then price else 0)
                                             - (if b'[k].id == buyer then price else 0))
        {
          assert a'[k] == after[k + 1] && b'[k] == before[k + 1];
        }
      }
      SettledTotal(b', a', seller, buyer, price);
      SettledHead(before[0].balance, after[0].balance, before[0].id == seller, before[0].id == buyer,
                  price, CountId(b', seller), CountId(b', buyer));
    }
  }

  /** The arithmetic of one roster entry in the induction above. */
  lemma SettledHead(b: int, a: int, isSeller: bool, isBuyer: bool, price: int, cs: int, cb: int)
    requires a == b + (if isSeller then price else 0) - (if isBuyer then price else 0)
    ensures a + (price * cs - price * cb)
            == b + price * ((if isSeller then 1 else 0) + cs) - price * ((if isBuyer then 1 else 0) + cb)
  {
    assert price * ((if isSeller then 1 else 0) + cs) == (if isSeller then price else 0) + price * cs;
    assert price * ((if isBuyer then 1 else 0) + cb) == (if isBuyer then price else 0) + price * cb;
  }

  // ---------------------------------------------------------------------
  // Operations and runs

  datatype Op =
    | RegisterOp(name: string, email: string, password: string, newUserId: Id)
    | LoginOp(email: string, password: string)
    | LogoutOp
    | ListOp(fields: ListingFields, existing: Option<Id>, newTicketId: Id, listedAt: nat)
    | PurchaseOp(ticketId: Id, txId: Id, boughtAt: nat)

  /** The fresh-id oracles keep their promise: a new user id is a non-empty
      unused id and a new ticket id is unused. */
  predicate OracleOk(s: AppState, op: Op) {
    match op
    case RegisterOp(_, _, _, newId) => newId != "" && !IsUserId(s.auth.users, newId)
    case ListOp(_, _, newId, _) => FreshTicketId(s.market, newId)
    case _ => true
  }

  function Step(s: AppState, op: Op): AppState
    requires OracleOk(s, op)
  {
    match op
    case RegisterOp(name, email, password, newId) => s.(auth := Register(s.auth, name, email, password, newId).1)
    case LoginOp(email, password) => s.(auth := Login(s.auth, email, password).1)
    case LogoutOp => s.(auth := Logout(s.auth))
    case ListOp(fields, existing, newId, now) => ListTicket(s, fields, existing, newId, now).1
    case PurchaseOp(tid, txId, now) => Purchase(s, tid, txId, now).1
  }

  /** Applies the operations in order; `None` when an oracle breaks its promise. */
  function Run(s: AppState, ops: seq<Op>): Option<AppState>
    decreases |ops|
  {
    if ops == [] then Some(s)
    else if !OracleOk(s, ops[0]) then None
    else Run(Step(s, ops[0]), ops[1..])
  }

  // ---------------------------------------------------------------------
  // Invariants

  /** Ids and emails unique, ids non-empty, the session a roster projection,
      every recorded owner registered, every ticket with an ownership
      record, and the balances summing to the seed total plus the starting
      balance of every account registered since. */
  predicate Inv(s: AppState) {
    var users := s.auth.users;
    && UniqueIds(users)
    && UniqueEmails(users)
    && (forall k :: 0 <= k < |users| ==> users[k].id != "")
    && SessionSynced(s.auth)
    && (forall k :: 0 <= k < |s.market.ownerships| ==> IsUserId(users, s.market.ownerships[k].ownerId))
    && (forall k :: 0 <= k < |s.market.tickets| ==> HasRecord(s.market.ownerships, s.market.tickets[k].id))
    && TotalBalance(users) == StartingBalance * |users| + 1100
  }

  lemma SeedInv(t0: nat)
    ensures Inv(Seed(t0))
  {
    var users := SeedUsers();
    assert users[0] in users && users[1] in users;
    assert TotalBalance(users) == 1500 by {
      assert users[1..][1..] == [];
    }
    assert HasRecord(SeedMarket(t0).ownerships, "1") by {
      assert SeedMarket(t0).ownerships[0].ticketId == "1";
    }
  }

  /** The session user is registered. */
  lemma SessionUserRegistered(s: AppState)
    requires Inv(s)
    requires s.auth.session.Some?
    ensures IsUserId(s.auth.users, s.auth.session.value.id)
  {
    var k :| 0 <= k < |s.auth.users| && s.auth.session.value == Public(s.auth.users[k]);
    assert s.auth.users[k] in s.auth.users;
  }

  /** Every listed ticket has a registered, non-empty current owner, so
      the "no current owner" refusal of a purchase never fires. */
  lemma OwnersResolvable(s: AppState, tid: Id)
    requires Inv(s)
    requires HasRecord(s.market.ownerships, tid)
    ensures CurrentOwner(s.market.ownerships, tid) != ""
    ensures IsUserId(s.auth.users, CurrentOwner(s.market.ownerships, tid))
  {
    var users := s.auth.users;
    var os := s.market.ownerships;
    var i := Latest(os, tid).value;
    assert CurrentOwner(os, tid) == os[i].ownerId;
    assert IsUserId(users, os[i].ownerId);
    var u :| u in users && u.id == os[i].ownerId;
    var k :| 0 <= k < |users| && users[k] == u;
  }

  /** A purchase moves the price from buyer to seller: with both registered
      once, the total of all balances does not change. */
  lemma PurchaseConservesBalance(s: AppState, tid: Id, txId: Id, now: nat)
    requires UniqueIds(s.auth.users)
    requires PurchaseTicket(s.market, s.auth.session, tid, txId, now).Bought?
    requires IsUserId(s.auth.users, s.auth.session.value.id)
    requires IsUserId(s.auth.users, CurrentOwner(s.market.ownerships, tid))
    ensures TotalBalance(Purchase(s, tid, txId, now).1.auth.users) == TotalBalance(s.auth.users)
  {
    var b := PurchaseTicket(s.market, s.auth.session, tid, txId, now);
    var after := Purchase(s, tid, txId, now).1.auth.users;
    SettledTotal(s.auth.users, after, b.sellerId, s.auth.session.value.id, b.price);
    CountIdUnique(s.auth.users, b.sellerId);
    CountIdUnique(s.auth.users, s.auth.session.value.id);
  }

  lemma RegisterKeepsInv(s: AppState, name: string, email: string, password: string, newId: Id)
    requires Inv(s)
    requires newId != "" && !IsUserId(s.auth.users, newId)
    ensures Inv(Step(s, RegisterOp(name, email, password, newId)))
  {
    var r := Register(s.auth, name, email, password, newId);
    RegisterKeepsEmailsUnique(s.auth, name, email, password, newId);
    if r.0 {
      var nu := StoredUser(newId, name, email, password, StartingBalance, false);
      TotalBalanceAppend(s.auth.users, nu);
      assert r.1.session.value == Public(r.1.users[|s.auth.users|]);
      forall k | 0 <= k < |s.market.ownerships|
        ensures IsUserId(r.1.users, s.market.ownerships[k].ownerId)
      {
        var u :| u in s.auth.users && u.id == s.market.ownerships[k].ownerId;
        assert u in r.1.users;
      }
    }
  }

  lemma LoginKeepsInv(s: AppState, email: string, password: string)
    requires Inv(s)
    ensures Inv(Step(s, LoginOp(email, password)))
  {
  }

  lemma ListKeepsInv(s: AppState, fields: ListingFields, existing: Option<Id>, newId: Id, now: nat)
    requires Inv(s)
    requires FreshTicketId(s.market, newId)
    ensures Inv(Step(s, ListOp(fields, existing, newId, now)))
  {
    var s' := ListTicket(s, fields, existing, newId, now).1;
    if s.auth.session.Some? {
      SessionUserRegistered(s);
      var rec := OwnershipRecord(newId, s.auth.session.value.id, now);
      OwnershipsKeepInv(s.auth.users, s.market.ownerships, s'.market.ownerships, rec);
      ListingRecordsCoverTickets(s.market.tickets, s'.market.tickets, s.market.ownerships, rec);
    }
  }

  /** A listing appends one ticket and one record of the same id, so every
      ticket still has a record. */
  lemma ListingRecordsCoverTickets(ts: seq<Ticket>, ts': seq<Ticket>, os: seq<OwnershipRecord>, rec: OwnershipRecord)
    requires |ts'| == |ts| + 1 && ts'[..|ts|] == ts && ts'[|ts|].id == rec.ticketId
    requires forall k :: 0 <= k < |ts| ==> HasRecord(os, ts[k].id)
    ensures forall k :: 0 <= k < |ts'| ==> HasRecord(os + [rec], ts'[k].id)
  {
    var os' := os + [rec];
    assert os'[|os|] == rec;
    forall k | 0 <= k < |ts'| ensures HasRecord(os', ts'[k].id) {
      if k < |ts| {
        assert ts'[k] == ts[k];
        var j :| 0 <= j < |os| && os[j].ticketId == ts[k].id;
        assert os'[j] == os[j];
      }
    }
  }

  lemma PurchaseKeepsInv(s: AppState, tid: Id, txId: Id, now: nat)
    requires Inv(s)
    ensures Inv(Step(s, PurchaseOp(tid, txId, now)))
  {
    var r := Purchase(s, tid, txId, now);
    if r.0 {
      var b := PurchaseTicket(s.market, s.auth.session, tid, txId, now);
      var buyer := s.auth.session.value.id;
      var users := s.auth.users;
      var users' := r.1.auth.users;
      SessionUserRegistered(s);
      OwnersResolvable(s, tid);
      PurchaseConservesBalance(s, tid, txId, now);
      SettledSameAccounts(users, users', b.sellerId, buyer, b.price);
      SameAccountsKeepIdentity(users, users');
      PurchaseAvailabilityMonotone(s.market, s.auth.session, tid, txId, now);
      assert r.1.market.ownerships == s.market.ownerships + [OwnershipRecord(tid, buyer, now)];
      assert forall k :: 0 <= k < |s.market.ownerships| ==> IsUserId(users', s.market.ownerships[k].ownerId);
      OwnershipsKeepInv(users', s.market.ownerships, r.1.market.ownerships, OwnershipRecord(tid, buyer, now));
      RecordsCoverTickets(s.market.tickets, r.1.market.tickets, s.market.ownerships, r.1.market.ownerships);
      assert UniqueIds(users') && UniqueEmails(users');
      assert forall k :: 0 <= k < |users'| ==> users'[k].id != "";
      assert SessionSynced(r.1.auth);
      assert TotalBalance(users') == StartingBalance * |users'| + 1100;
    }
  }

  /** Appending a record for a registered owner keeps every owner registered. */
  lemma OwnershipsKeepInv(users: seq<StoredUser>, os: seq<OwnershipRecord>, os': seq<OwnershipRecord>, rec: OwnershipRecord)
    requires os' == os + [rec]
    requires IsUserId(users, rec.ownerId)
    requires forall k :: 0 <= k < |os| ==> IsUserId(users, os[k].ownerId)
    ensures forall k :: 0 <= k < |os'| ==> IsUserId(users, os'[k].ownerId)
  {
    forall k | 0 <= k < |os'| ensures IsUserId(users, os'[k].ownerId) {
      if k < |os| {
        assert os'[k] == os[k];
      }
    }
  }

  /** Tickets whose ids are unchanged keep having records when the log grows. */
  lemma RecordsCoverTickets(ts: seq<Ticket>, ts': seq<Ticket>, os: seq<OwnershipRecord>, os': seq<OwnershipRecord>)
    requires TicketsEvolve(ts, ts') && |ts'| == |ts|
    requires os <= os'
    requires forall k :: 0 <= k < |ts| ==> HasRecord(os, ts[k].id)
    ensures forall k :: 0 <= k < |ts'| ==> HasRecord(os', ts'[k].id)
  {
    forall k | 0 <= k < |ts'| ensures HasRecord(os', ts'[k].id) {
      assert ts'[k].id == ts[k].id;
      assert HasRecord(os, ts[k].id);
      var j :| 0 <= j < |os| && os[j].ticketId == ts[k].id;
      assert os'[j] == os[j];
    }
  }

  lemma {:induction false} StepKeepsInv(s: AppState, op: Op)
    requires Inv(s)
    requires OracleOk(s, op)
    ensures Inv(Step(s, op))
  {
    match op
    case RegisterOp(name, email, password, newId) => RegisterKeepsInv(s, name, email, password, newId);
    case LoginOp(email, password) => LoginKeepsInv(s, email, password);
    case LogoutOp =>
    case ListOp(fields, existing, newId, now) => ListKeepsInv(s, fields, existing, newId, now);
    case PurchaseOp(tid, txId, now) => PurchaseKeepsInv(s, tid, txId, now);
  }

  // ---------------------------------------------------------------------
  // What only grows

  /** Logs are append-only, tickets only lose availability, and users keep
      everything except their balance. */
  predicate Evolves(s: AppState, s': AppState) {
    && s.market.transactions <= s'.market.transactions
    && s.market.ownerships <= s'.market.ownerships
    && TicketsEvolve(s.market.tickets, s'.market.tickets)
    && |s.auth.users| <= |s'.auth.users|
    && forall k :: 0 <= k < |s.auth.users| ==>
         s'.auth.users[k] == s.auth.users[k].(balance := s'.auth.users[k].balance)
  }

  lemma EvolvesTransitive(a: AppState, b: AppState, c: AppState)
    requires Evolves(a, b) && Evolves(b, c)
    ensures Evolves(a, c)
  {
    TicketsEvolveTransitive(a.market.tickets, b.market.tickets, c.market.tickets);
  }

  /** One operation keeps the logs' prefixes and the users' identities, and
      the only tickets it writes as available are the ones it creates. */
  lemma StepEvolves(s: AppState, op: Op)
    requires OracleOk(s, op)
    ensures Evolves(s, Step(s, op))
    ensures forall k :: |s.market.tickets| <= k < |Step(s, op).market.tickets| ==>
              Step(s, op).market.tickets[k].available
  {
    var s' := Step(s, op);
    match op
    case RegisterOp(name, email, password, newId) =>
    case LoginOp(email, password) =>
    case LogoutOp =>
    case ListOp(fields, existing, newId, now) =>
    case PurchaseOp(tid, txId, now) =>
      if Purchase(s, tid, txId, now).0 {
        PurchaseAvailabilityMonotone(s.market, s.auth.session, tid, txId, now);
      }
  }

  /** Every run from a state satisfying the invariant keeps it, and ends in
      a state the start evolves into. */
  lemma {:induction false} RunKeepsInv(s: AppState, ops: seq<Op>)
    requires Inv(s)
    requires Run(s, ops).Some?
    ensures Inv(Run(s, ops).value)
    ensures Evolves(s, Run(s, ops).value)
    decreases |ops|
  {
    if ops == [] {
      TicketsEvolveTransitive(s.market.tickets, s.market.tickets, s.market.tickets);
    } else {
      var s1 := Step(s, ops[0]);
      StepKeepsInv(s, ops[0]);
      StepEvolves(s, ops[0]);
      RunKeepsInv(s1, ops[1..]);
      EvolvesTransitive(s, s1, Run(s1, ops[1..]).value);
    }
  }

  /** From the seeded state, no run ever revives an unavailable ticket,
      edits or drops a log entry, creates or destroys balance other than the
      registration grant, or loses track of an owner. */
  lemma ReachableFromSeed(t0: nat, ops: seq<Op>)
    requires Run(Seed(t0), ops).Some?
    ensures Inv(Run(Seed(t0), ops).value)
    ensures Evolves(Seed(t0), Run(Seed(t0), ops).value)
  {
    SeedInv(t0);
    RunKeepsInv(Seed(t0), ops);
  }

  /** In a reachable state a reload restores exactly the current session. */
  lemma ReloadKeepsSession(s: AppState)
    requires Inv(s)
    ensures RestoreSession(s.auth.users, s.auth.session) == s.auth.session
  {
    if s.auth.session.Some? {
      var k :| 0 <= k < |s.auth.users| && s.auth.session.value == Public(s.auth.users[k]);
      assert s.auth.users[k] in s.auth.users;
      var j := FindIndex(s.auth.users, (u: StoredUser) => u.id == s.auth.session.value.id).value;
      assert j == k;
    }
  }

  /** A first purchase: a newly registered user (starting balance 200) buys the seeded
      ticket "1" (price 150) from user "2" (balance 500). */
  lemma FirstPurchaseScenario(t0: nat, now: nat)
    ensures var s1 := Step(Seed(t0), RegisterOp("New User", "new@example.com", "secret123", "3"));
            var r := Purchase(s1, "1", "tx1", now);
            && r.0
            && !r.1.market.tickets[0].available
            && r.1.market.transactions == [Transaction("tx1", "1", "2", "3", 150, now)]
            && r.1.market.ownerships == [OwnershipRecord("1", "2", t0), OwnershipRecord("1", "3", now)]
            && r.1.auth == Settle(s1.auth, "2", "3", 150)
  {
    var s1 := ScenarioRegistered(t0);
    SeedPurchase(t0, s1.auth.session.value, now);
  }

  /** The balances after that purchase: the seller "2" goes from 500 to
      650, the newcomer from 200 to 50, the admin keeps 1000, and the
      newcomer's session shows the new balance. */
  lemma ScenarioSettled(t0: nat)
    ensures var s1 := Step(Seed(t0), RegisterOp("New User", "new@example.com", "secret123", "3"));
            var st := Settle(s1.auth, "2", "3", 150);
            && |st.users| == 3
            && st.users[0].balance == 1000
            && st.users[1].balance == 650
            && st.users[2].balance == 50
            && st.session == Some(User("3", "New User", "new@example.com", 50, false))
  {
    var s1 := ScenarioRegistered(t0);
    SettleBalances(s1.auth, "2", "3", 150);
    var credited := UpdateUserBalance(s1.auth, "2", 150);
    assert credited.session == s1.auth.session;
    assert credited.users[2].id == "3";
    UpdateSessionFacts(credited, "3", -150);
  }

  /** Buying the seeded ticket with a balance that covers its price: the
      seeded seller "2" is paid 150, the ticket is sold, and the log gains
      one transaction and one ownership record for the buyer. */
  lemma SeedPurchase(t0: nat, buyer: User, now: nat)
    requires buyer.balance >= 150
    ensures var m := SeedMarket(t0);
            PurchaseTicket(m, Some(buyer), "1", "tx1", now)
              == Bought(Market([m.tickets[0].(available := false)],
                               [Transaction("tx1", "1", "2", buyer.id, 150, now)],
                               [OwnershipRecord("1", "2", t0), OwnershipRecord("1", buyer.id, now)]),
                        "2", 150)
  {
    var m := SeedMarket(t0);
    assert GetTicketById(m.tickets, "1") == Some(m.tickets[0]);
    assert Latest(m.ownerships, "1") == Some(0);
    assert CurrentOwner(m.ownerships, "1") == "2";
    assert SoldAt(m.tickets, "1", m.tickets[0], 0);
  }

  /** The state after the newcomer registers. */
  lemma ScenarioRegistered(t0: nat) returns (s1: AppState)
    ensures s1 == Step(Seed(t0), RegisterOp("New User", "new@example.com", "secret123", "3"))
    ensures s1.market == SeedMarket(t0)
    ensures s1.auth.users == SeedUsers() + [StoredUser("3", "New User", "new@example.com", "secret123", 200, false)]
    ensures s1.auth.session == Some(User("3", "New User", "new@example.com", 200, false))
  {
    var s0 := Seed(t0);
    assert !IsUserId(s0.auth.users, "3") by {
      forall u | u in s0.auth.users ensures u.id != "3" {
        assert u == s0.auth.users[0] || u == s0.auth.users[1];
      }
    }
    assert !EmailTaken(s0.auth.users, "new@example.com") by {
      forall u | u in s0.auth.users ensures u.email != "new@example.com" {
        assert u == s0.auth.users[0] || u == s0.auth.users[1];
      }
    }
    s1 := Step(s0, RegisterOp("New User", "new@example.com", "secret123", "3"));
  }
}

=== FILE: ticket_details.dfy ===
/** The ticket page: the owner test and the purchase button's handler. */
module TicketDetails {
  import opened Base
  import opened Auth
  import opened Tickets
  import opened Store

  const AlreadyOwnError := "You already own this ticket"
  const BalanceError := "You don't have enough balance to purchase this ticket"
  const PurchaseFailedError := "Failed to purchase ticket. Please try again."

  /** What the page shows after the button is pressed. */
  datatype DetailsResult = TicketNotFound | GoToLogin | PurchaseError(message: string) | PurchaseDone

  /** `isOwner`: a signed-in user who is the ticket's current owner. */
  predicate IsOwner(s: AppState, tid: Id) {
    s.auth.session.Some? && s.auth.session.value.id == CurrentOwner(s.market.ownerships, tid)
  }

  /** `handlePurchase` on the page of ticket `tid`. */
  function HandlePurchase(s: AppState, tid: Id, txId: Id, now: nat): (r: (DetailsResult, AppState))
    ensures GetTicketById(s.market.tickets, tid).None? ==> r == (TicketNotFound, s)
    ensures GetTicketById(s.market.tickets, tid).Some? && s.auth.session.None? ==> r == (GoToLogin, s)
    ensures GetTicketById(s.market.tickets, tid).Some? && IsOwner(s, tid) ==> r == (PurchaseError(AlreadyOwnError), s)
    ensures r.0 == PurchaseDone <==>
              !IsOwner(s, tid) && Purchase(s, tid, txId, now).0
    ensures r.0 == PurchaseDone ==> r.1 == Purchase(s, tid, txId, now).1
    ensures r.0 != PurchaseDone ==> r.1 == s
    ensures r.0 == PurchaseError(BalanceError) <==>
              && GetTicketById(s.market.tickets, tid).Some?
              && s.auth.session.Some? && !IsOwner(s, tid)
              && !Purchase(s, tid, txId, now).0
              && s.auth.session.value.balance < GetTicketById(s.market.tickets, tid).value.price
    ensures r.0 == PurchaseError(PurchaseFailedError) <==>
              && GetTicketById(s.market.tickets, tid).Some?
              && s.auth.session.Some? && !IsOwner(s, tid)
              && !Purchase(s, tid, txId, now).0
              && s.auth.session.value.balance >= GetTicketById(s.market.tickets, tid).value.price
  {
    match GetTicketById(s.market.tickets, tid)
    case None => (TicketNotFound, s)
    case Some(t) =>
      if s.auth.session.None? then (GoToLogin, s)
      else if IsOwner(s, tid) then (PurchaseError(AlreadyOwnError), s)
      else
        var (ok, s') := Purchase(s, tid, txId, now);
        if ok then (PurchaseDone, s')
        else if s.auth.session.value.balance < t.price then (PurchaseError(BalanceError), s)
        else (PurchaseError(PurchaseFailedError), s)
  }

  /** In every state the application can reach, the generic failure message
      appears only for a ticket that has already been sold: the user is
      signed in, is not the owner, can afford it, and the ticket has an
      owner to pay. */
  lemma GenericFailureMeansSold(s: AppState, tid: Id, txId: Id, now: nat)
    requires Inv(s)
    ensures HandlePurchase(s, tid, txId, now).0 == PurchaseError(PurchaseFailedError) <==>
              && GetTicketById(s.market.tickets, tid).Some?
              && !GetTicketById(s.market.tickets, tid).value.available
              && s.auth.session.Some? && !IsOwner(s, tid)
              && s.auth.session.value.balance >= GetTicketById(s.market.tickets, tid).value.price
  {
    var found := GetTicketById(s.market.tickets, tid);
    if found.Some? {
      var k :| 0 <= k < |s.market.tickets| && s.market.tickets[k] == found.value && found.value.id == tid;
      assert HasRecord(s.market.ownerships, s.market.tickets[k].id);
      OwnersResolvable(s, tid);
    }
  }
}

=== FILE: tickets.dfy ===
/** The marketplace store: tickets, the transaction log and the ownership
    log, with the derived views and the two mutating operations (listing a
    ticket and buying one). The acting user, the clock and fresh ids are
    explicit parameters. */
module Tickets {
  import opened Base
  import opened Seqs
  import Auth

  datatype TicketType = Event | Concert | Movie | Train | Bus

  /** What the sell form supplies for a new listing. */
  datatype ListingFields = ListingFields(title: string, description: string, price: int, date: string,
                                         location: string, ttype: TicketType, image: string)

  /** `isResale` absent in the store reads as false here. */
  datatype Ticket = Ticket(id: Id, title: string, description: string, price: int, date: string,
                           location: string, ttype: TicketType, image: string,
                           sellerId: Id, sellerName: string, available: bool,
                           isResale: bool, originalTicketId: Option<Id>)

  datatype Transaction = Transaction(id: Id, ticketId: Id, sellerId: Id, buyerId: Id,
                                     price: int, timestamp: nat)

  datatype OwnershipRecord = OwnershipRecord(ticketId: Id, ownerId: Id, timestamp: nat)

  datatype Market = Market(tickets: seq<Ticket>, transactions: seq<Transaction>,
                           ownerships: seq<OwnershipRecord>)

  /** The picture choices offered to sellers; the first is the seeded
      listing's. */
  const SampleImages: seq<string> := [FestivalImage, SampleImage1, SampleImage2, SampleImage3, SampleImage4, SampleImage5]

  const SampleImage1 := "https://images.pexels.com/photos/953457/pexels-photo-953457.jpeg"
  const SampleImage2 := "https://images.pexels.com/photos/1540406/pexels-photo-1540406.jpeg"
  const SampleImage3 := "https://images.pexels.com/photos/7991579/pexels-photo-7991579.jpeg"
  const SampleImage4 := "https://images.pexels.com/photos/7234262/pexels-photo-7234262.jpeg"
  const SampleImage5 := "https://images.pexels.com/photos/2422588/pexels-photo-2422588.jpeg"

  /** The seeded listing's text fields and picture. */
  const FestivalTitle := "Summer Music Festival"
  const FestivalDescription := "Annual music festival featuring top artists from around the world."
  const FestivalDate := "2025-07-15T18:00:00"
  const FestivalLocation := "Central Park, New York"
  const FestivalImage := "https://images.pexels.com/photos/2747449/pexels-photo-2747449.jpeg"

  /** The data written on first run: one concert listing by user "2",
      owned by that user since the seeding time `t0`, and no sales. */
  function SeedMarket(t0: nat): Market {
    Market(
      [ Ticket("1", FestivalTitle, FestivalDescription,
               150, FestivalDate, FestivalLocation, Concert, FestivalImage,
               "2", "Regular User", true, false, None) ],
      [],
      [ OwnershipRecord("1", "2", t0) ])
  }

  // ---------------------------------------------------------------------
  // The ownership log

  predicate HasRecord(os: seq<OwnershipRecord>, tid: Id) {
    exists k :: 0 <= k < |os| && os[k].ticketId == tid
  }

  /** Record `i` is the one a stable newest-first sort of the ticket's
      records puts first: no record of the ticket is newer, and every earlier
      record of the ticket is strictly older. */
  predicate IsLatest(os: seq<OwnershipRecord>, tid: Id, i: int) {
    && 0 <= i < |os|
    && os[i].ticketId == tid
    && (forall k :: 0 <= k < |os| && os[k].ticketId == tid ==> os[k].timestamp <= os[i].timestamp)
    && (forall k :: 0 <= k < i && os[k].ticketId == tid ==> os[k].timestamp < os[i].timestamp)
  }

  /** The position of the latest record of a ticket, by a scan of the log. */
  function Latest(os: seq<OwnershipRecord>, tid: Id): (r: Option<nat>)
    ensures r.None? <==> !HasRecord(os, tid)
    ensures r.Some? ==> IsLatest(os, tid, r.value)
    decreases |os|
  {
    if os == [] then None
    else
      var n := |os| - 1;
      var prev := Latest(os[..n], tid);
      assert forall k :: 0 <= k < n ==> os[..n][k] == os[k];
      if os[n].ticketId != tid then
        assert HasRecord(os, tid) ==> HasRecord(os[..n], tid);
        prev
      else if prev.None? then Some(n)
      else if os[n].timestamp > os[prev.value].timestamp then Some(n)
      else prev
  }

  /** The latest record of a ticket is determined uniquely. */
  lemma IsLatestUnique(os: seq<OwnershipRecord>, tid: Id, i: int, j: int)
    requires IsLatest(os, tid, i) && IsLatest(os, tid, j)
    ensures i == j
  {
  }

  /** `getCurrentOwner`: the owner in the latest record of the ticket, or
      the empty string when the ticket has no record. */
  function CurrentOwner(os: seq<OwnershipRecord>, tid: Id): (r: Id)
    ensures !HasRecord(os, tid) ==> r == ""
    ensures forall i {:trigger IsLatest(os, tid, i)} :: IsLatest(os, tid, i) ==> r == os[i].ownerId
  {
    match Latest(os, tid)
    case Some(i) => os[i].ownerId
    case None => ""
  }

  /** Appending a record leaves the owners of other tickets alone, and makes
      its owner the current owner when it is newer than every earlier record
      of its ticket. */
  lemma CurrentOwnerAfterAppend(os: seq<OwnershipRecord>, rec: OwnershipRecord)
    ensures forall tid :: tid != rec.ticketId ==> CurrentOwner(os + [rec], tid) == CurrentOwner(os, tid)
    ensures (forall k :: 0 <= k < |os| && os[k].ticketId == rec.ticketId ==> os[k].timestamp < rec.timestamp)
            ==> CurrentOwner(os + [rec], rec.ticketId) == rec.ownerId
  {
    var os' := os + [rec];
    assert os'[..|os|] == os;
    forall tid | tid != rec.ticketId
      ensures CurrentOwner(os', tid) == CurrentOwner(os, tid)
    {
      assert Latest(os', tid) == Latest(os, tid);
    }
    if forall k :: 0 <= k < |os| && os[k].ticketId == rec.ticketId ==> os[k].timestamp < rec.timestamp {
      assert Latest(os', rec.ticketId) == Some(|os|);
    }
  }

  // ---------------------------------------------------------------------
  // Look-ups and derived views

  /** `getTicketById`: the first ticket carrying the id. */
  function GetTicketById(ts: seq<Ticket>, id: Id): (r: Option<Ticket>)
    ensures r.None? <==> forall k :: 0 <= k < |ts| ==> ts[k].id != id
    ensures r.Some? ==> exists k :: 0 <= k < |ts| && ts[k] == r.value && r.value.id == id
                                    && forall j :: 0 <= j < k ==> ts[j].id != id
  {
    Find(ts, (t: Ticket) => t.id == id)
  }

  predicate HasBought(txs: seq<Transaction>, tid: Id, uid: Id) {
    exists k :: 0 <= k < |txs| && txs[k].ticketId == tid && txs[k].buyerId == uid
  }

  predicate OwnedByBuyer(m: Market, uid: Id, t: Ticket) {
    CurrentOwner(m.ownerships, t.id) == uid && HasBought(m.transactions, t.id, uid)
  }

  /** `userTickets`: the tickets the user currently owns AND bought, in
      listing order; a listing the user created but never bought is not one. */
  function UserTickets(m: Market, user: Option<Auth.User>): (r: seq<Ticket>)
    ensures user.None? ==> r == []
    ensures IsSubsequence(r, m.tickets)
    ensures user.Some? ==> forall t :: t in r <==> t in m.tickets && OwnedByBuyer(m, user.value.id, t)
    ensures user.Some? ==> forall t :: t in m.tickets ==>
              multiset(r)[t] == if OwnedByBuyer(m, user.value.id, t) then multiset(m.tickets)[t] else 0
  {
    match user
    case None => []
    case Some(u) => Filter(m.tickets, (t: Ticket) => OwnedByBuyer(m, u.id, t))
  }

  /** `userResaleListings`: the resale listings the user created, sold or not. */
  function UserResaleListings(m: Market, user: Option<Auth.User>): (r: seq<Ticket>)
    ensures user.None? ==> r == []
    ensures IsSubsequence(r, m.tickets)
    ensures user.Some? ==> forall t :: t in r <==> t in m.tickets && t.sellerId == user.value.id && t.isResale
    ensures user.Some? ==> forall t :: t in m.tickets ==>
              multiset(r)[t] == if t.sellerId == user.value.id && t.isResale then multiset(m.tickets)[t] else 0
  {
    match user
    case None => []
    case Some(u) => Filter(m.tickets, (t: Ticket) => t.sellerId == u.id && t.isResale)
  }

  // ---------------------------------------------------------------------
  // Listing a ticket

  datatype AddOutcome = NotSignedIn | Listed(id: Id, market: Market)

  /** The fresh-id oracle's promise: no ticket and no record uses the id. */
  predicate FreshTicketId(m: Market, id: Id) {
    (forall t :: t in m.tickets ==> t.id != id) && !HasRecord(m.ownerships, id)
  }

  /** A resale is requested when a non-empty existing ticket id is given. */
  predicate ResaleRequested(existing: Option<Id>) {
    SomeTruthy(existing)
  }

  /** `addTicket`: with no signed-in user it fails (the store throws);
      otherwise it appends one available ticket sold by the user and one
      ownership record giving it to the user. A resale listing points at the
      existing ticket, which is left as it was. */
  function AddTicket(m: Market, user: Option<Auth.User>, fields: ListingFields, existing: Option<Id>,
                     newId: Id, now: nat): (r: AddOutcome)
    requires FreshTicketId(m, newId)
    ensures user.None? <==> r.NotSignedIn?
    ensures r.Listed? ==>
              && r.id == newId
              && r.market.transactions == m.transactions
              && r.market.ownerships == m.ownerships + [OwnershipRecord(newId, user.value.id, now)]
              && |r.market.tickets| == |m.tickets| + 1
              && r.market.tickets[..|m.tickets|] == m.tickets
    ensures r.Listed? ==>
              var t := r.market.tickets[|m.tickets|];
              && t.id == newId && t.sellerId == user.value.id && t.sellerName == user.value.name
              && t.available
              && t.title == fields.title && t.description == fields.description
              && t.price == fields.price && t.date == fields.date && t.location == fields.location
              && t.ttype == fields.ttype && t.image == fields.image
              && (t.isResale <==> ResaleRequested(existing))
              && t.originalTicketId == (if ResaleRequested(existing) then existing else None)
  {
    match user
    case None => NotSignedIn
    case Some(u) =>
      var resale := ResaleRequested(existing);
      var t := Ticket(newId, fields.title, fields.description, fields.price, fields.date,
                      fields.location, fields.ttype, fields.image, u.id, u.name, true,
                      resale, if resale then existing else None);
      var tickets' := m.tickets + [t];
      assert tickets'[..|m.tickets|] == m.tickets;
      Listed(newId, Market(tickets', m.transactions, m.ownerships + [OwnershipRecord(newId, u.id, now)]))
  }

  /** After listing, the seller is the new ticket's current owner and no
      other ticket changes hands. */
  lemma AddTicketMakesSellerOwner(m: Market, user: Option<Auth.User>, fields: ListingFields,
                                  existing: Option<Id>, newId: Id, now: nat)
    requires FreshTicketId(m, newId)
    requires user.Some?
    ensures var r := AddTicket(m, user, fields, existing, newId, now);
            && CurrentOwner(r.market.ownerships, newId) == user.value.id
            && forall tid :: tid != newId ==> CurrentOwner(r.market.ownerships, tid) == CurrentOwner(m.ownerships, tid)
  {
    CurrentOwnerAfterAppend(m.ownerships, OwnershipRecord(newId, user.value.id, now));
  }

  // ---------------------------------------------------------------------
  // Buying a ticket

  datatype PurchaseOutcome = Rejected | Bought(market: Market, sellerId: Id, price: int)

  /** Position `k` holds the FIRST ticket with the original id of a resale
      listing `bought`: the one whose availability a sale also clears. */
  predicate IsCascadeTarget(ts: seq<Ticket>, bought: Ticket, k: int) {
    && bought.isResale && SomeTruthy(bought.originalTicketId)
    && 0 <= k < |ts| && ts[k].id == bought.originalTicketId.value
    && forall j :: 0 <= j < k ==> ts[j].id != bought.originalTicketId.value
  }

  /** Every ticket with the id becomes unavailable. */
  function MarkSold(ts: seq<Ticket>, tid: Id): (r: seq<Ticket>)
    ensures |r| == |ts|
    ensures forall k :: 0 <= k < |ts| ==>
              r[k] == if ts[k].id == tid then ts[k].(available := false) else ts[k]
  {
    seq(|ts|, k requires 0 <= k < |ts| => if ts[k].id == tid then ts[k].(available := false) else ts[k])
  }

  /** When `bought` is a resale listing, its original becomes unavailable too. */
  function Cascade(ts: seq<Ticket>, bought: Ticket): (r: seq<Ticket>)
    ensures |r| == |ts|
    ensures forall k :: 0 <= k < |ts| ==>
              r[k] == if IsCascadeTarget(ts, bought, k) then ts[k].(available := false) else ts[k]
  {
    if bought.isResale && SomeTruthy(bought.originalTicketId) then
      match FindIndex(ts, (t: Ticket) => t.id == bought.originalTicketId.value)
      case Some(j) => ts[j := ts[j].(available := false)]
      case None => ts
    else ts
  }

  /** Whether position `k` loses its availability when `bought` (id `tid`) sells. */
  predicate SoldAt(ts: seq<Ticket>, tid: Id, bought: Ticket, k: int) {
    0 <= k < |ts| && (ts[k].id == tid || IsCascadeTarget(ts, bought, k))
  }

  /** Marking the bought id sold and then cascading to the original marks
      exactly the positions `SoldAt` names: the marking step keeps every id,
      so the cascade finds the same original. */
  lemma MarkThenCascade(ts: seq<Ticket>, tid: Id, bought: Ticket)
    ensures |Cascade(MarkSold(ts, tid), bought)| == |ts|
    ensures forall k :: 0 <= k < |ts| ==>
              Cascade(MarkSold(ts, tid), bought)[k]
                == if SoldAt(ts, tid, bought, k) then ts[k].(available := false) else ts[k]
  {
    var marked := MarkSold(ts, tid);
    forall k | 0 <= k < |ts|
      ensures IsCascadeTarget(marked, bought, k) == IsCascadeTarget(ts, bought, k)
    {
    }
  }

  /** `purchaseTicket` on the marketplace side. It refuses, changing nothing,
      when there is no user, the ticket is missing or unavailable, the
      user's balance is below the price, or no current owner is recorded.
      Otherwise it marks the ticket (and, for a resale, its original)
      unavailable and appends one transaction and one ownership record; the
      seller and price it reports drive the two balance updates. */
  function PurchaseTicket(m: Market, user: Option<Auth.User>, tid: Id, txId: Id, now: nat): (r: PurchaseOutcome)
    ensures r.Bought? <==>
              && user.Some?
              && GetTicketById(m.tickets, tid).Some?
              && GetTicketById(m.tickets, tid).value.available
              && user.value.balance >= GetTicketById(m.tickets, tid).value.price
              && CurrentOwner(m.ownerships, tid) != ""
    ensures r.Bought? ==>
              var bought := GetTicketById(m.tickets, tid).value;
              && r.sellerId == CurrentOwner(m.ownerships, tid)
              && r.price == bought.price
              && r.market.transactions
                   == m.transactions + [Transaction(txId, tid, r.sellerId, user.value.id, bought.price, now)]
              && r.market.ownerships == m.ownerships + [OwnershipRecord(tid, user.value.id, now)]
              && |r.market.tickets| == |m.tickets|
              && forall k :: 0 <= k < |m.tickets| ==>
                   r.market.tickets[k] == if SoldAt(m.tickets, tid, bought, k)
                                         then m.tickets[k].(available := false)
                                         else m.tickets[k]
  {
    if user.None? then Rejected
    else
      match GetTicketById(m.tickets, tid)
      case None => Rejected
      case Some(bought) =>
        if !bought.available then Rejected
        else if user.value.balance < bought.price then Rejected
        else
          var owner := CurrentOwner(m.ownerships, tid);
          if !Truthy(owner) then Rejected
          else
            var marked := MarkSold(m.tickets, tid);
            MarkThenCascade(m.tickets, tid, bought);
            var tickets' := Cascade(marked, bought);
            Bought(Market(tickets',
                          m.transactions + [Transaction(txId, tid, owner, user.value.id, bought.price, now)],
                          m.ownerships + [OwnershipRecord(tid, user.value.id, now)]),
                   owner, bought.price)
  }

  /** Availability only ever goes from true to false at existing positions;
      nothing else about an existing ticket changes. */
  predicate TicketsEvolve(before: seq<Ticket>, after: seq<Ticket>) {
    && |before| <= |after|
    && forall k :: 0 <= k < |before| ==>
         after[k] == before[k] || after[k] == before[k].(available := false)
  }

  lemma {:induction false} TicketsEvolveTransitive(a: seq<Ticket>, b: seq<Ticket>, c: seq<Ticket>)
    requires TicketsEvolve(a, b) && TicketsEvolve(b, c)
    ensures TicketsEvolve(a, c)
    ensures forall k :: 0 <= k < |a| && !a[k].available ==> !c[k].available
  {
    forall k | 0 <= k < |a|
      ensures c[k] == a[k] || c[k] == a[k].(available := false)
    {
    }
  }

  /** A purchase never makes a ticket available, and a primary listing's
      sale touches only the tickets carrying its id. */
  lemma PurchaseAvailabilityMonotone(m: Market, user: Option<Auth.User>, tid: Id, txId: Id, now: nat)
    requires PurchaseTicket(m, user, tid, txId, now).Bought?
    ensures TicketsEvolve(m.tickets, PurchaseTicket(m, user, tid, txId, now).market.tickets)
    ensures !GetTicketById(m.tickets, tid).value.isResale ==>
              forall k :: 0 <= k < |m.tickets| && m.tickets[k].id != tid ==>
                PurchaseTicket(m, user, tid, txId, now).market.tickets[k] == m.tickets[k]
  {
  }

  /** With a clock that has moved past every earlier record of the ticket,
      the buyer becomes its current owner; other tickets keep their owners. */
  lemma PurchaseMakesBuyerOwner(m: Market, user: Option<Auth.User>, tid: Id, txId: Id, now: nat)
    requires PurchaseTicket(m, user, tid, txId, now).Bought?
    requires forall k :: 0 <= k < |m.ownerships| ==> m.ownerships[k].timestamp < now
    ensures var m' := PurchaseTicket(m, user, tid, txId, now).market;
            && CurrentOwner(m'.ownerships, tid) == user.value.id
            && forall other :: other != tid ==> CurrentOwner(m'.ownerships, other) == CurrentOwner(m.ownerships, other)
  {
    CurrentOwnerAfterAppend(m.ownerships, OwnershipRecord(tid, user.value.id, now));
  }

  /** Listing a resale of the seeded ticket under the fresh id "R": the
      marketplace gains exactly the new listing, pointing back at "1", and
      one ownership record for its seller. */
  lemma ListResaleOfSeed(t0: nat, seller: Auth.User, fields: ListingFields, t1: nat)
    ensures FreshTicketId(SeedMarket(t0), "R")
    ensures var listed := AddTicket(SeedMarket(t0), Some(seller), fields, Some("1"), "R", t1);
            && listed.Listed?
            && listed.market.tickets
                 == SeedMarket(t0).tickets
                    + [Ticket("R", fields.title, fields.description, fields.price, fields.date,
                              fields.location, fields.ttype, fields.image, seller.id, seller.name,
                              true, true, Some("1"))]
            && listed.market.transactions == []
            && listed.market.ownerships == [OwnershipRecord("1", "2", t0), OwnershipRecord("R", seller.id, t1)]
  {
    var m0 := SeedMarket(t0);
    assert !HasRecord(m0.ownerships, "R") by {
      forall k | 0 <= k < |m0.ownerships| ensures m0.ownerships[k].ticketId != "R" {
        assert k == 0;
      }
    }
  }

  /** The seeded seller relists ticket "1" as resale listing "R": the
      original stays on sale until "R" is bought, and then both are sold. */
  lemma ResaleScenario(t0: nat, t1: nat, t2: nat)
    ensures var seller := Auth.User("2", "Regular User", "user@example.com", 500, false);
            var buyer := Auth.User("3", "New User", "new@example.com", 200, false);
            var fields := ListingFields("Resold", "Resale", 120, "2025-07-15T18:00", FestivalLocation,
                                        Concert, FestivalImage);
            && FreshTicketId(SeedMarket(t0), "R")
            && var listed := AddTicket(SeedMarket(t0), Some(seller), fields, Some("1"), "R", t1);
            && listed.Listed?
            && listed.market.tickets[0].available
            && listed.market.tickets[1].isResale
            && var bought := PurchaseTicket(listed.market, Some(buyer), "R", "tx1", t2);
               && bought.Bought?
               && bought.sellerId == "2"
               && !bought.market.tickets[0].available
               && !bought.market.tickets[1].available
  {
    var seller := Auth.User("2", "Regular User", "user@example.com", 500, false);
    var buyer := Auth.User("3", "New User", "new@example.com", 200, false);
    var fields := ListingFields("Resold", "Resale", 120, "2025-07-15T18:00", FestivalLocation,
                                Concert, FestivalImage);
    ListResaleOfSeed(t0, seller, fields, t1);
    var m1 := AddTicket(SeedMarket(t0), Some(seller), fields, Some("1"), "R", t1).market;
    assert GetTicketById(m1.tickets, "R") == Some(m1.tickets[1]);
    assert Latest(m1.ownerships, "R") == Some(1);
    assert CurrentOwner(m1.ownerships, "R") == "2";
    assert IsCascadeTarget(m1.tickets, m1.tickets[1], 0);
    assert SoldAt(m1.tickets, "R", m1.tickets[1], 0);
    assert SoldAt(m1.tickets, "R", m1.tickets[1], 1);
  }
}
